=== FILE: README.md ===
# Unity AI Assistant: the orchestration core in Dafny

This project models the orchestration logic of the Unity AI Assistant's `App`
component. In that application, a user grants the browser access to a Unity
project folder. The application lists the folder's C# scripts and lets the user
chat with a backend model. The model's replies can be structured "create" or
"edit" suggestions, which the user approves (they are written to disk) or
declines. Each event handler is modelled as one atomic, pure transition over
an immutable `App` state. Everything the handler gets from outside is a
parameter:

- the picker's outcome, including the granted folder's contents at that
  moment;
- whether each later listing throws (the listing itself reads the model's
  copy of the folder, which only the app's own writes change);
- the parsed backend reply;
- the chunk stream;
- the write outcome;
- the clock.

Modules, one per concern of the source:

- `Types`: the records and unions of `types.ts`, with readers for their
  string literals and the `AppState` ordinals.
- `Strings`: the JavaScript built-ins the handlers rely on. These are
  `includes`, `endsWith`, case-insensitive matching of ASCII keywords, `trim`,
  and `toString` on a non-negative integer.
- `Classifier`: the script-name pattern `([a-zA-Z0-9_]+)\.cs` and the two keyword
  families. Together they decide between a structured suggestion and a
  streamed conversation.
- `Instruction`: `getSystemInstruction`, which embeds every script of the
  snapshot.
- `Directory`: the folder behind the directory handle, with the non-recursive
  `.cs` listing and the create-or-overwrite `writeFile`.
- `Conversation`: message ids, the greeting, the suggestion and fallback
  messages, the status update, and the streaming fold.
- `AppModel`: the state and its handlers. These are project selection, rescan,
  viewing a script, sending, the send box's busy gate, and the suggestion
  action.
- `AppProperties`: the state invariant every handler keeps, plus properties
  that relate several handlers.
- `Scenarios`: worked examples, proved end to end through the handlers.

Behaviours of the handlers worth knowing:

- **A second decision is not blocked.** `handleSuggestionAction` never looks
  at the current status. It re-runs the write on a second approve and
  overwrites the status on any decision. Only the interface, which shows the
  buttons while the status is `pending`, makes the status one-way
  (`DecidedSuggestionCanChange` versus `DecidedStaysDecidedThroughUi`).
- **An empty project cannot chat.** It is accepted and reaches READY with a
  greeting counting zero scripts. But no chat session is created without
  scripts. So a conversational message returns early with the state left busy,
  and the send box then ignores every submission until something clears the
  busy flag (`NoSessionLeavesBusy`, `EmptyFolderScenario`). The suggestion
  buttons are not gated by that flag, and approving always ends idle
  (`ApproveClearsBusy`). So a creation request sent before the conversation
  can still be approved; the write makes the folder non-empty and the rescan
  creates a session (`EmptyProjectRecovers`).
- **A failed write still approves.** When the write fails, the suggestion is
  still marked `approved`, and only the toast reports the failure.
- **A failed rescan reports a failed save.** When the write succeeds but the
  listing that follows throws, the file is on disk, yet the toast reports an
  error, the script list, viewed script and session keep the old snapshot, and
  the suggestion is still marked `approved` (`ApproveRescanFailure`).
- **The scanning text stays.** `handleProjectSelect` never clears the loading
  text "Scanning project files...". It stays until a suggestion request or an
  approval clears it, and a streamed conversation before then shows it in the
  loading overlay while the reply streams (App.tsx:380; `Select`,
  `ScanningTextStaysUntilSuggestion`).

## Model

| member | source | states |
|---|---|---|
| Types.ParseKind | types.ts:8 | exactly the literals `create` and `edit` are suggestion kinds, and a parsed kind renders back to its literal |
| Types.ParseStatus | types.ts:13 | a status is exactly one of `pending`, `approved`, `declined`, and a parsed status renders back to its literal |
| Types.ParseSender | types.ts:18 | exactly `user` and `ai` are senders, and a parsed sender renders back to its literal |
| Types.PhaseOfOrdinal | types.ts:23-28 | the enum has exactly four members, ordinals 0 to 3, and each ordinal maps back to its member |
| Types.LiteralsRoundTrip | types.ts:7-28 | every kind, status, sender and phase survives rendering and reading back |
| Strings.Contains | App.tsx:244 | `includes` holds exactly when the word occurs at some offset of the text |
| Strings.ContainsIgnoreCase | App.tsx:294-295 | a case-insensitive keyword test holds exactly when the keyword occurs in the ASCII-lower-cased text |
| Strings.Trim | App.tsx:141 | the result is the slice left after removing white space from both ends; it is empty exactly when the input is all white space |
| Strings.NatToDecimal | App.tsx:288 | `Date.now().toString()` is a non-empty digit string, without a leading zero, whose decimal value is the timestamp |
| Strings.NatToDecimalInjective | App.tsx:288 | different timestamps render to different strings |
| Classifier.ExtractScriptName | App.tsx:292-293 | no name exactly when the pattern matches nowhere; otherwise the leftmost match including `.cs`, which is a valid script name |
| Classifier.FirstMatchIsMaximal | App.tsx:292 | the reported match begins a maximal run of word characters: no word character precedes it |
| Classifier.ExtensionPrefixStillMatches | App.tsx:292 | the pattern is unanchored, so `Foo.csv` yields `Foo.cs` |
| Classifier.MatchesAny | App.tsx:294-295 | an alternation of keywords matches exactly when one of them occurs in the lower-cased text |
| Classifier.CuesIgnoreCase | App.tsx:294-295 | the keyword families give the same answer on upper-cased text |
| Classifier.Classify | App.tsx:292-298 | structured branch exactly when a name matches and a keyword of either family occurs; the name is the leftmost match; the kind is `create` exactly when a creation keyword occurs (line 327), so create wins over edit; otherwise streaming chat (line 350) |
| Classifier.NoNameMeansChat | App.tsx:292-297 | any message in which the pattern matches nowhere goes to the conversation, whatever keywords it carries |
| Classifier.NoDotMeansChat | App.tsx:292-297 | any message without a dot goes to the conversation, since every match contains the dot of `.cs` |
| Classifier.NoNameExample | App.tsx:292-297 | "make and edit it" carries keywords of both families and still goes to the conversation |
| Classifier.ClassifyEditRequest | App.tsx:292-298 | "update Player.cs" is an `edit` suggestion for `Player.cs` |
| Instruction.ScriptContext | App.tsx:206 | the join of no scripts is empty; otherwise the joined context is as long as the rendered scripts and the separators between them, measured by the independent offset function |
| Instruction.SystemInstruction | App.tsx:205-214 | the instruction is exactly the fixed preamble, then the joined context right after it, then the fixed reply instructions: its length is the sum of the three and each sits at its place |
| Instruction.InstructionPlacesEveryScript | App.tsx:206-209 | the i-th script's rendering sits in the instruction at the preamble's length plus its offset in the context, so the scripts appear in list order |
| Instruction.ContextPieces | App.tsx:206 | the i-th script, rendered as `// name`, a blank line and its content, sits at its offset in the context: scripts appear in list order |
| Instruction.ContextSeparators | App.tsx:206 | every rendered script except the last is followed by the `---` separator |
| Instruction.InstructionEmbedsEveryScript | App.tsx:205-214 | the system instruction contains, for every script, its name comment and its full content |
| Instruction.EmptySnapshotInstruction | App.tsx:205-214 | with no scripts the context is empty and the instruction is the fixed preamble and instructions |
| Directory.Scan | App.tsx:161-175 | the snapshot holds exactly one record per file entry whose name ends in `.cs`, with its content; sub-directories are skipped and are not entered |
| Directory.ScanAppend | App.tsx:163-168 | scanning keeps the folder's listing order |
| Directory.FindScript | App.tsx:259 | none exactly when no record has the name; otherwise a record of the list with that name, and no earlier record has it (`Array.prototype.find` returns the first) |
| Directory.FindInScan | App.tsx:253-261 | looking a `.cs` name up in a fresh scan finds the folder's file of that name with its current content, or nothing when it is absent or a directory |
| Directory.WriteFile | App.tsx:177-183 | the write succeeds exactly when the device allows it and the name is not a directory; the name then holds the content, every other name is unchanged, and a new name adds one entry |
| Directory.WriteThenScan | App.tsx:272-274 | after a successful write of a `.cs` file, a rescan finds that file with the written content |
| Conversation.MessageId | App.tsx:288 | an id is all digits exactly when it is a plain (user or greeting) id |
| Conversation.MessageIdsDistinct | App.tsx:288-352 | two ids are equal exactly when they have the same timestamp and shape, so a user id never equals an assistant reply's id (suggestion, fallback or streamed); the greeting shares the plain shape |
| Conversation.UserMessage | App.tsx:288 | the user message carries the text, no suggestion, and a digits-only id |
| Conversation.Greeting | App.tsx:239 | the greeting is an assistant message whose text has the fixed lead and tail around the decimal script count |
| Conversation.ReplyMessage | App.tsx:324-346 | a parsed reply gives one assistant message with empty text and a pending suggestion of the classified kind and name, carrying the reply's explanation, code and changes; a failure gives the fixed apology with no suggestion |
| Conversation.FindMessage | App.tsx:265 | the index of the first message with the id, or none exactly when no message has it |
| Conversation.SetStatus | App.tsx:283 | only messages with the id that carry a suggestion change, and only in that suggestion's status |
| Conversation.SetText | App.tsx:360 | only messages with the id change, and only in their text |
| Conversation.SetTextTwice | App.tsx:360-362 | a later text update replaces an earlier one |
| Conversation.Step | App.tsx:358-359 | one chunk extends the accumulated text by the chunk; every message with the id then shows the accumulated text followed by the cursor, and every other message is unchanged |
| Conversation.Fold | App.tsx:357-361 | after the chunks, the accumulated text is the earlier text followed by their concatenation, and, unless there were none, the messages with the id show it followed by the cursor |
| Conversation.StreamReply | App.tsx:352-366 | streaming appends exactly one assistant message, which ends with the concatenation on completion or the error notice on failure; earlier messages change only if they share the id, and then only in their text |
| Conversation.RunStream | App.tsx:353-365 | the loop renders the placeholder log showing the bare cursor, then after k chunks the log whose messages with the id show the first k chunks concatenated plus the cursor, then the log showing the final text; that last log equals the fold's |
| Conversation.StreamChunks | App.tsx:356-361 | the chunk loop renders, after k chunks, the placeholder log whose messages with the id show the first k chunks concatenated plus the cursor, and ends with the fold's log |
| Conversation.StreamingExample | App.tsx:357-362 | the chunks "Hel", "lo ", "world" pass through three cursor-suffixed texts, and the streamed reply appended to any log is the assistant message "Hello world" |
| AppModel.Init | App.tsx:188-203 | the state starts in SELECTING, or UNSUPPORTED without a directory picker, with no handle, scripts, messages, session, loading text or toast |
| AppModel.RefreshChat | App.tsx:217-227 | a fresh session embedding the current scripts exists after READY with scripts; otherwise the session is left as it was; nothing else changes |
| AppModel.SelectionErrorText | App.tsx:240-249 | no error exactly for an `AbortError`; the fixed host-environment text when the message contains "Cross origin sub frames"; otherwise the fixed lead followed by the message |
| AppModel.Select | App.tsx:229-250 | a picker failure records only the classified error; a failed listing leaves SCANNING with the handle held; success reaches READY with the scan, a single greeting counting the scripts, no error, the loading text left at "Scanning project files...", the toast untouched, and a session built from the scripts when there are any |
| AppModel.Rescan | App.tsx:253-262 | without a handle nothing changes; with a handle, a listing that throws yields no state (the caller's `catch` takes over), and otherwise the scripts are the fresh scan, the viewed script is rebound to the same-named record or to none, the session embeds the new scan in READY with scripts, and nothing else changes |
| AppModel.ViewScript | App.tsx:381 | viewing sets the selected script and nothing else |
| AppModel.SendMessage | App.tsx:287-371 | the user message is appended first; a suggestion intent appends the reply message and ends idle; a conversation streams a reply and ends idle, or, without a session, returns with only the user message and stays busy |
| AppModel.Submit | App.tsx:140-145 | blank input or a busy state changes nothing; otherwise the trimmed text is sent |
| AppModel.DecisionStatus | App.tsx:283 | a decision never leaves the status pending |
| AppModel.WriteSuggestion | App.tsx:253-281 | a successful write and listing leave the written folder, the rescanned scripts, the success toast, the viewed script rebound to the same-named record of the new scan (or none), and in READY with scripts a session embedding the new scan; a successful write whose listing throws leaves the written folder but the old scripts, viewed script and session, with the error toast; a failed write changes only the toast, to the error; it ends idle in every case |
| AppModel.ActionApplies | App.tsx:265-266 | the action proceeds exactly when a handle is held and the first message with the id exists and carries a suggestion |
| AppModel.Act | App.tsx:264-284 | nothing changes when the message is missing, has no suggestion, or no handle is held; otherwise the log is the status update; a decline changes nothing else |
| AppProperties.ScanListed | App.tsx:161-175 | every record of a scan is a `.cs` file whose handle carries its name |
| AppProperties.InitWf | App.tsx:188-203 | the initial state satisfies the invariant |
| AppProperties.SelectWf | App.tsx:229-250 | selection keeps the invariant (handle held exactly in SCANNING and READY, unique `.cs` names, session current) and leaves the READY scripts equal to the scan of the held folder |
| AppProperties.ViewScriptWf | App.tsx:381 | viewing keeps the invariant |
| AppProperties.ReplyWellFormed | App.tsx:326-339 | the reply message for a name the pattern can produce keeps every suggestion an assistant's, naming a valid script |
| AppProperties.StreamWellFormed | App.tsx:352-366 | streaming leaves every suggestion as it was |
| AppProperties.SendMessageWf | App.tsx:287-371 | sending keeps the invariant and keeps the scripts in step with the folder |
| AppProperties.SubmitWf | App.tsx:140-145 | the send box keeps the invariant and keeps the scripts in step with the folder |
| AppProperties.SetStatusWellFormed | App.tsx:283 | the status update keeps suggestions well formed |
| AppProperties.WriteSuggestionWf | App.tsx:268-281 | the write and rescan keep the invariant whatever the write and the listing do, and with a successful listing the scripts stay in step with the folder |
| AppProperties.ActWf | App.tsx:264-284 | the suggestion action keeps the invariant, and with a successful listing the scripts stay in step with the folder |
| AppProperties.ApproveSavesScript | App.tsx:268-274 | approving with a successful write and listing puts the script, with the suggested code, into the folder and the snapshot, reports success, ends idle and marks the suggestion approved |
| AppProperties.ApproveRefreshesViewer | App.tsx:257-274 | when the viewed script is the approved one, the viewer shows the written code afterwards, and in READY the session is rebuilt from the new snapshot |
| AppProperties.ApproveRescanFailure | App.tsx:271-283 | a successful write followed by a listing that throws leaves the code in the folder but the scripts, viewed script and session as they were, reports the error, ends idle and still marks the suggestion approved |
| AppProperties.ApproveWriteFailure | App.tsx:275-283 | a failed write leaves the folder, snapshot and viewed script as they were, reports the error, and still marks the suggestion approved |
| AppProperties.DeclineNeverWrites | App.tsx:268-283 | declining leaves the folder and snapshot untouched, marks the suggestion declined, and changes no message with another id |
| AppProperties.DecidedSuggestionCanChange | App.tsx:264-284 | the handler re-decides a suggestion that is already approved or declined |
| AppProperties.Click | App.tsx:123-129 | a click on a message's button happens only while that message's own suggestion is pending, and otherwise changes nothing; the log keeps its length and messages with other ids are unchanged; with a handle held and no earlier message sharing the id, the clicked suggestion takes the decided status and nothing else of it changes |
| AppProperties.ActionTargetsOneMessage | App.tsx:265-283 | with unique ids, the message the action finds is the only one with that id, so the status update touches exactly that message |
| AppProperties.DecidedStaysDecidedThroughUi | App.tsx:123-129 | with unique ids, a decided suggestion is untouched by a click on any message's button |
| AppProperties.ClickSettles | App.tsx:123-129 | a click on a pending suggestion's button decides it and hides its buttons |
| AppProperties.NoSessionLeavesBusy | App.tsx:350-351 | a conversation without a session appends only the user message and leaves the state busy, after which every submission is ignored |
| AppProperties.ScanningTextStaysUntilSuggestion | App.tsx:229-348 | after a successful selection the loading text is still the scanning text; a conversation keeps it and a suggestion request clears it |
| AppProperties.ApproveClearsBusy | App.tsx:268-281 | approving ends idle whatever the write and the listing do; declining leaves the busy flag as it was |
| AppProperties.ReadyWithScriptsStreams | App.tsx:350-369 | in READY with scripts a conversation always streams, appending the reply with its final text and ending idle |
| Scenarios.EditScenario | App.tsx:229-284 | selecting a folder with `Player.cs`, requesting an edit and approving it leaves the folder and snapshot holding the new code, with the suggestion approved |
| Scenarios.EmptyFolderScenario | App.tsx:218-351 | an empty folder reaches READY with a zero-count greeting and no session; a conversation then stays busy |
| Scenarios.EmptyProjectRecovers | App.tsx:218-351 | in an empty folder, a creation request, a conversation that leaves the state busy, and the approval of the creation end idle with one script, a session and the suggestion approved |

## Left out

- JSX, presentation and timers are not modelled (App.tsx:17-158, 373-386): icons, syntax highlighting, clipboard copy, toast timers and scrolling. The interface enters only through the rule that a suggestion's buttons show only while it is pending (`AppProperties.Click`).
- The directory picker and the file-handle API are not modelled. The held handle is the folder's contents: a sequence of named entries, each a file or a sub-directory. A picker or listing failure is an input (`Pick`), and so is the device's write outcome (`writeOk`).
- Directory.WriteFile: when a write fails after `getFileHandle(..., {create: true})` has already created the file, the source leaves a new empty file behind. The model treats a failed write as changing nothing.
- Directory.WriteFile: the model lists a newly created file last. The real listing order of a directory handle is unspecified.
- Directory.WriteFile: names compare exactly, as on a case-sensitive file system. On a case-insensitive volume the source's `getFileHandle("player.cs")` opens an existing `Player.cs` and the listing keeps its old spelling, so the model's "a new name adds one entry" does not hold there.
- Conversation.SetStatus: a later message that shares the action's id but has no suggestion is left unchanged, while the source's `{ ...m.suggestion!, status }` would give it a suggestion holding only a status. With unique ids this cannot happen (`ActionTargetsOneMessage`). Even without them it does not arise: a suggestion id (`-ai-sugg`) never equals a user, greeting, fallback or streamed id (`MessageIdsDistinct`), and every message with a suggestion id carries a suggestion (`ReplyMessage`).
- The Gemini requests, `JSON.parse` and the response schema are foreign calls. The structured reply is an `Option<Reply>` (None when the request or the parse throws), and the conversational reply is a `Stream` of chunks that completes or fails. A reply whose JSON lacks `code` or `explanation` is not modelled, since the schema declares them required.
- The chat session's history lives inside the backend SDK. The model records only the system instruction a session was created with.
- The transient loading texts ("Generating X...", "Analyzing X...", "Saving X...") are not modelled. They are replaced before the handler returns. The model keeps the texts a handler leaves behind.
- `console.error` logging is not modelled.
- React batching, stale closures and effect scheduling are not modelled: each handler is one atomic transition. The chat-session effect runs as part of the transition that changes the phase or the scripts.
- `Date.now()` is a parameter of each handler. In the source it may repeat within one millisecond, so the model proves ids distinct by timestamp and shape, not globally unique.
- Unicode case folding is not modelled: a regular expression with the `i` flag and no `u` flag folds only ASCII letters for these ASCII keywords, and the model folds exactly those.
- AppModel.Select: requires the SELECTING phase, because the selector's button that triggers it is rendered only in that phase (App.tsx:42-55, 373).
- AppProperties.Synced: the folder changes only through the app's own writes. In the source the handle is live, so a file edited or added outside the app between handlers appears only at the next listing, and the script list is stale until then. The model has no external-edit transition, so `Synced` (and the "in step with the folder" clauses of `SelectWf`, `SendMessageWf`, `SubmitWf`, `WriteSuggestionWf` and `ActWf`) holds only for a folder nothing else touches.

=== FILE: app.dfy ===
/** The `App` component's state and its handlers, each one atomic transition:
    project selection and scan, rescan, sending a message, acting on a
    suggestion, and the send box's busy gate. External results (picker,
    listing, backend replies, write outcome, clock) are parameters. */
module AppModel {
  import opened Wrappers
  import opened Strings
  import opened Types
  import opened Classifier
  import opened Instruction
  import opened Directory
  import opened Conversation

  /** The assistant's conversational session, as far as the application
      determines it: the system instruction it was created with. */
  datatype ChatSession = ChatSession(systemInstruction: string)

  /** The component state. `directory` is the held directory handle, modelled
      as the contents of the folder it grants access to. */
  datatype App = App(
    phase: AppState,
    directory: Option<Folder>,
    scripts: seq<ScriptFile>,
    selected: Option<ScriptFile>,
    messages: seq<ChatMessage>,
    isLoading: bool,
    loadingMessage: string,
    toast: string,
    selectionError: Option<string>,
    chat: Option<ChatSession>)

  /** Phase order: SELECTING may move on to SCANNING or READY; every phase
      may stay where it is; nothing moves back. */
  predicate CanFollow(p: AppState, q: AppState) {
    p == q || (p == Selecting && (q == Scanning || q == Ready))
  }

  /** Initial state; the mount effect moves to UNSUPPORTED when the browser
      has no directory picker. */
  function Init(pickerAvailable: bool): (a: App)
    ensures a.phase == Selecting <==> pickerAvailable
    ensures a.phase == Unsupported <==> !pickerAvailable
    ensures a.directory.None? && a.scripts == [] && a.messages == [] && a.chat.None?
    ensures !a.isLoading && a.selected.None? && a.selectionError.None?
    ensures a.loadingMessage == "" && a.toast == ""
  {
    App(if pickerAvailable then Selecting else Unsupported, None, [], None, [], false, "", "", None, None)
  }

  /** The effect that creates a fresh chat session, embedding the current
      scripts, whenever the phase or the script list changes while READY with
      at least one script. It never clears an existing session. */
  function RefreshChat(a: App): (r: App)
    ensures r.(chat := a.chat) == a
    ensures a.phase == Ready && |a.scripts| > 0 ==>
              r.chat == Some(ChatSession(SystemInstruction(a.scripts)))
    ensures !(a.phase == Ready && |a.scripts| > 0) ==> r == a
  {
    if a.phase == Ready && |a.scripts| > 0 then
      a.(chat := Some(ChatSession(SystemInstruction(a.scripts))))
    else a
  }

  // ---------------------------------------------------------------- selection

  /** A thrown JavaScript error: its `name` and `message`. */
  datatype JsError = JsError(name: string, message: string)

  const CrossOriginSignature := "Cross origin sub frames"

  const HostEnvironmentText := "Host Environment Error: This app is in a restricted frame (iframe) that blocks the directory picker. This is a security feature of the host environment. The app requested permission, but it was denied. This is not a bug in the app, but a limitation of the platform it's running on."

  const UnexpectedErrorLead := "An unexpected error occurred: "

  const ScanningText := "Scanning project files..."

  /** The selection error recorded for a thrown error: none for a
      cancellation, the fixed host-environment text for the cross-origin
      signature, and the raw message after a fixed lead otherwise. */
  function SelectionErrorText(e: JsError): (r: Option<string>)
    ensures r.None? <==> e.name == "AbortError"
    ensures r.Some? && Contains(e.message, CrossOriginSignature) ==> r.value == HostEnvironmentText
    ensures r.Some? && !Contains(e.message, CrossOriginSignature) ==>
              |UnexpectedErrorLead| <= |r.value|
              && r.value[..|UnexpectedErrorLead|] == UnexpectedErrorLead
              && r.value[|UnexpectedErrorLead|..] == e.message
  {
    if e.name == "AbortError" then None
    else if Contains(e.message, CrossOriginSignature) then Some(HostEnvironmentText)
    else
      var t := UnexpectedErrorLead + e.message;
      assert t[..|UnexpectedErrorLead|] == UnexpectedErrorLead;
      Some(t)
  }

  /** What the picker and the listing produced: a thrown error from the
      picker, or a granted folder whose listing either threw or succeeded. */
  datatype Pick = PickFailed(error: JsError) | Picked(folder: Folder, scanError: Option<JsError>)

  /** `handleProjectSelect`, reachable from the selector button, which is
      shown only while SELECTING. */
  function Select(a: App, pick: Pick, now: nat): (r: App)
    requires a.phase == Selecting
    ensures CanFollow(a.phase, r.phase)
    ensures pick.PickFailed? ==> r == a.(selectionError := SelectionErrorText(pick.error))
    ensures pick.Picked? && pick.scanError.Some? ==>
              r == a.(directory := Some(pick.folder), phase := Scanning, loadingMessage := ScanningText,
                       selectionError := SelectionErrorText(pick.scanError.value))
    ensures pick.Picked? && pick.scanError.None? ==>
              && r.phase == Ready
              && r.directory == Some(pick.folder)
              && r.scripts == Scan(pick.folder)
              && r.messages == [Greeting(now, |Scan(pick.folder)|)]
              && r.selectionError.None?
              && (|r.scripts| > 0 ==> r.chat == Some(ChatSession(SystemInstruction(r.scripts))))
              && (|r.scripts| == 0 ==> r.chat == a.chat)
              && r.isLoading == a.isLoading && r.selected == a.selected
              && r.loadingMessage == ScanningText && r.toast == a.toast
  {
    match pick
    case PickFailed(e) => a.(selectionError := SelectionErrorText(e))
    case Picked(folder, Some(e)) =>
      a.(directory := Some(folder), phase := Scanning, loadingMessage := ScanningText,
         selectionError := SelectionErrorText(e))
    case Picked(folder, None) =>
      var scripts := Scan(folder);
      RefreshChat(a.(directory := Some(folder), phase := Ready, loadingMessage := ScanningText,
                     scripts := scripts, messages := [Greeting(now, |scripts|)], selectionError := None))
  }

  /** `refreshScripts`: re-lists the folder and rebinds the viewed script to
      the record of the same name, or to none when it is gone. When the
      listing throws (`listingOk` false) the call rejects before changing
      anything, which is None here. */
  function Rescan(a: App, listingOk: bool): (r: Option<App>)
    ensures a.directory.None? ==> r == Some(a)
    ensures r.None? <==> a.directory.Some? && !listingOk
    ensures a.directory.Some? && listingOk ==>
              && r.value.scripts == Scan(a.directory.value)
              && r.value.selected == (if a.selected.None? then None else FindScript(r.value.scripts, a.selected.value.name))
              && r.value.(scripts := a.scripts, selected := a.selected, chat := a.chat) == a
    ensures a.directory.Some? && listingOk && r.value.phase == Ready && |r.value.scripts| > 0 ==>
              r.value.chat == Some(ChatSession(SystemInstruction(r.value.scripts)))
    ensures a.directory.Some? && listingOk && !(r.value.phase == Ready && |r.value.scripts| > 0) ==>
              r.value.chat == a.chat
  {
    match a.directory
    case None => Some(a)
    case Some(folder) =>
      if !listingOk then None
      else
        var scripts := Scan(folder);
        var selected := if a.selected.None? then None else FindScript(scripts, a.selected.value.name);
        Some(RefreshChat(a.(scripts := scripts, selected := selected)))
  }

  /** The file explorer's `onSelect`: view one of the listed scripts. */
  function ViewScript(a: App, k: nat): (r: App)
    requires k < |a.scripts|
    ensures r.selected == Some(a.scripts[k])
    ensures r.(selected := a.selected) == a
  {
    a.(selected := Some(a.scripts[k]))
  }

  // ---------------------------------------------------------------- sending

  /** `handleSendMessage`. The user message is appended and the state goes
      busy; a file-suggestion intent appends the reply message (suggestion or
      apology) and goes idle; a conversation streams into a new message and
      goes idle, unless there is no chat session, in which case the handler
      returns at once and the state stays busy. `parsed` is the structured
      reply (None when the request or `JSON.parse` threw); `stream` is the
      conversational reply; `sentAt` and `repliedAt` are `Date.now()`. */
  function SendMessage(a: App, text: string, sentAt: nat, repliedAt: nat,
                       parsed: Option<Reply>, stream: Stream): (r: App)
    ensures r.phase == a.phase && r.directory == a.directory && r.scripts == a.scripts
    ensures r.selected == a.selected && r.chat == a.chat && r.toast == a.toast
    ensures r.selectionError == a.selectionError
    ensures |r.messages| > |a.messages| && r.messages[|a.messages|] == UserMessage(sentAt, text)
    ensures Classify(text).FileSuggestion? ==>
              && r.messages == a.messages + [UserMessage(sentAt, text),
                   ReplyMessage(repliedAt, Classify(text).kind, Classify(text).scriptName, parsed)]
              && !r.isLoading && r.loadingMessage == ""
    ensures Classify(text).GeneralChat? && a.chat.None? ==>
              r == a.(messages := a.messages + [UserMessage(sentAt, text)], isLoading := true)
    ensures Classify(text).GeneralChat? && a.chat.Some? ==>
              && r.messages == StreamReply(a.messages + [UserMessage(sentAt, text)], MessageId(repliedAt, AiStream), stream)
              && !r.isLoading && r.loadingMessage == a.loadingMessage
  {
    var withUser := a.(messages := a.messages + [UserMessage(sentAt, text)], isLoading := true);
    match Classify(text)
    case FileSuggestion(kind, name) =>
      var reply := ReplyMessage(repliedAt, kind, name, parsed);
      withUser.(messages := withUser.messages + [reply], loadingMessage := "", isLoading := false)
    case GeneralChat =>
      if a.chat.None? then withUser
      else
        var id := MessageId(repliedAt, AiStream);
        withUser.(messages := StreamReply(withUser.messages, id, stream), isLoading := false)
  }

  /** The send box's `handleSend`: the trimmed input is sent unless it is
      empty or a request is in flight. */
  function Submit(a: App, input: string, sentAt: nat, repliedAt: nat,
                  parsed: Option<Reply>, stream: Stream): (r: App)
    ensures Trim(input) == "" || a.isLoading ==> r == a
    ensures Trim(input) != "" && !a.isLoading ==>
              |r.messages| > |a.messages| && r.messages[|a.messages|] == UserMessage(sentAt, Trim(input))
  {
    var t := Trim(input);
    if t == "" || a.isLoading then a
    else SendMessage(a, t, sentAt, repliedAt, parsed, stream)
  }

  // ---------------------------------------------------------------- suggestion action

  /** The two buttons of a pending suggestion. */
  datatype Decision = Approve | Decline

  function DecisionStatus(d: Decision): (s: Status)
    ensures s != Pending
  {
    match d
    case Approve => Approved
    case Decline => Declined
  }

  /** The guard of `handleSuggestionAction`: the message `find` returns for
      the id (the first one) carries a suggestion, and a directory handle is
      held. */
  function ActionApplies(a: App, id: string): (b: bool)
    ensures b <==> a.directory.Some? &&
                   exists k :: 0 <= k < |a.messages| && a.messages[k].id == id && a.messages[k].suggestion.Some?
                               && forall j :: 0 <= j < k ==> a.messages[j].id != id
  {
    var k := FindMessage(a.messages, id);
    k.Some? && a.messages[k.value].suggestion.Some? && a.directory.Some?
  }

  /** The suggestion the action works on. */
  function TargetSuggestion(a: App, id: string): Suggestion
    requires ActionApplies(a, id)
  {
    a.messages[FindMessage(a.messages, id).value].suggestion.value
  }

  const SavedSuffix := " saved successfully!"

  /** The toast for a failed save of `name`. */
  function SaveErrorToast(name: string): string {
    "Error saving " + name + "."
  }

  /** The approve half of `handleSuggestionAction`: `writeFile`, then the
      success toast and `refreshScripts`. A throw from either replaces the
      toast with the error one: a failed write changes nothing else, a failed
      listing leaves the written folder with the old scripts. Either way the
      state ends idle. */
  function WriteSuggestion(a: App, s: Suggestion, writeOk: bool, listingOk: bool): (r: App)
    requires a.directory.Some?
    ensures r.messages == a.messages && r.phase == a.phase && r.selectionError == a.selectionError
    ensures !r.isLoading && r.loadingMessage == ""
    ensures var w := WriteFile(a.directory.value, s.scriptName, s.code, writeOk);
            && (w.Some? && listingOk ==>
                  && r.directory == w && r.scripts == Scan(w.value) && r.toast == s.scriptName + SavedSuffix
                  && r.selected == (if a.selected.None? then None else FindScript(r.scripts, a.selected.value.name))
                  && r.chat == (if a.phase == Ready && |r.scripts| > 0 then Some(ChatSession(SystemInstruction(r.scripts)))
                                else a.chat))
            && (w.Some? && !listingOk ==>
                  r == a.(directory := w, toast := SaveErrorToast(s.scriptName), isLoading := false, loadingMessage := ""))
            && (w.None? ==>
                  r == a.(toast := SaveErrorToast(s.scriptName), isLoading := false, loadingMessage := ""))
  {
    match WriteFile(a.directory.value, s.scriptName, s.code, writeOk)
    case Some(folder) =>
      var written := a.(directory := Some(folder), toast := s.scriptName + SavedSuffix);
      (match Rescan(written, listingOk)
       case Some(b) => b.(isLoading := false, loadingMessage := "")
       case None => written.(toast := SaveErrorToast(s.scriptName), isLoading := false, loadingMessage := ""))
    case None =>
      a.(toast := SaveErrorToast(s.scriptName), isLoading := false, loadingMessage := "")
  }

  /** `handleSuggestionAction`. When the guard holds, approving first runs
      the write; then, for either decision, the status is set. The handler
      does not look at the current status. */
  function Act(a: App, id: string, d: Decision, writeOk: bool, listingOk: bool): (r: App)
    ensures !ActionApplies(a, id) ==> r == a
    ensures ActionApplies(a, id) ==> r.messages == SetStatus(a.messages, id, DecisionStatus(d))
    ensures ActionApplies(a, id) && d == Decline ==>
              r == a.(messages := SetStatus(a.messages, id, Declined))
    ensures r.phase == a.phase && r.selectionError == a.selectionError
  {
    if !ActionApplies(a, id) then a
    else
      var afterWrite := if d == Decline then a else WriteSuggestion(a, TargetSuggestion(a, id), writeOk, listingOk);
      afterWrite.(messages := SetStatus(afterWrite.messages, id, DecisionStatus(d)))
  }
}

=== FILE: classifier.dfy ===
/** The intent classifier of `handleSendMessage`: the script-name pattern
    `([a-zA-Z0-9_]+)\.cs` and the two case-insensitive keyword families that
    decide between a file suggestion and a streamed conversation. */
module Classifier {
  import opened Wrappers
  import opened Strings
  import opened Types

  const Extension := ScriptExtension

  /** A character of the class `[a-zA-Z0-9_]`. */
  predicate IsWordChar(c: char) {
    'a' <= c <= 'z' || 'A' <= c <= 'Z' || '0' <= c <= '9' || c == '_'
  }

  /** A name the pattern can produce: one or more word characters and `.cs`. */
  predicate ValidScriptName(n: string) {
    |n| > |Extension| && EndsWith(n, Extension)
    && forall k :: 0 <= k < |n| - |Extension| ==> IsWordChar(n[k])
  }

  /** Regular-expression semantics: the pattern matches `s[i..j + 3]`, the
      word characters `s[i..j]` followed by `.cs`. */
  ghost predicate MatchAt(s: string, i: int, j: int) {
    0 <= i < j && j + |Extension| <= |s|
    && (forall k :: i <= k < j ==> IsWordChar(s[k]))
    && s[j..j + |Extension|] == Extension
  }

  /** The match a JavaScript regular expression reports: the leftmost one. */
  ghost predicate FirstMatch(s: string, i: int, j: int) {
    MatchAt(s, i, j) && forall i', j' :: 0 <= i' < i ==> !MatchAt(s, i', j')
  }

  /** End of the run of word characters that starts at `i`. */
  function RunEnd(s: string, i: nat): (e: nat)
    requires i <= |s|
    decreases |s| - i
    ensures i <= e <= |s|
    ensures forall k :: i <= k < e ==> IsWordChar(s[k])
    ensures e < |s| ==> !IsWordChar(s[e])
  {
    if i < |s| && IsWordChar(s[i]) then RunEnd(s, i + 1) else i
  }

  /** Inside one run of word characters every start position has the same
      candidate match: the run's end followed by `.cs`. */
  lemma MatchInsideRun(s: string, i: nat, i': int, j: int)
    requires i <= |s| && i <= i' < RunEnd(s, i)
    ensures MatchAt(s, i', j) <==> j == RunEnd(s, i) && OccursAt(s, Extension, j)
  {
    var e := RunEnd(s, i);
    if MatchAt(s, i', j) {
      assert s[j] == s[j..j + |Extension|][0];
    }
  }

  /** A position that is not a word character starts no match. */
  lemma NoMatchAtNonWord(s: string, i: nat, j: int)
    requires i < |s| && !IsWordChar(s[i])
    ensures !MatchAt(s, i, j)
  {
  }

  /** Scans the runs of word characters from `i` onwards, knowing that no
      match starts before `i`. */
  function ScanFrom(s: string, i: nat): (r: Option<string>)
    requires i <= |s|
    requires forall i', j :: 0 <= i' < i ==> !MatchAt(s, i', j)
    decreases |s| - i
    ensures r.None? <==> forall i', j :: !MatchAt(s, i', j)
    ensures r.Some? ==> exists i', j :: FirstMatch(s, i', j) && r.value == s[i'..j + |Extension|]
  {
    if i == |s| then
      None
    else if !IsWordChar(s[i]) then
      assert forall j :: !MatchAt(s, i, j) by {
        forall j { NoMatchAtNonWord(s, i, j); }
      }
      ScanFrom(s, i + 1)
    else
      var e := RunEnd(s, i);
      if e + |Extension| <= |s| && s[e..e + |Extension|] == Extension then
        assert FirstMatch(s, i, e);
        Some(s[i..e + |Extension|])
      else
        assert forall i', j :: i <= i' < e ==> !MatchAt(s, i', j) by {
          forall i', j | i <= i' < e { MatchInsideRun(s, i, i', j); }
        }
        ScanFrom(s, e)
  }

  /** `messageText.match(/([a-zA-Z0-9_]+)\.cs/)?.[0]`: the leftmost match of
      the pattern, suffix included, or None when the pattern does not occur. */
  function ExtractScriptName(s: string): (r: Option<string>)
    ensures r.None? <==> forall i, j :: !MatchAt(s, i, j)
    ensures r.Some? ==> exists i, j :: FirstMatch(s, i, j) && r.value == s[i..j + |Extension|]
    ensures r.Some? ==> ValidScriptName(r.value)
  {
    var r := ScanFrom(s, 0);
    if r.Some? then
      assert ValidScriptName(r.value) by {
        var i, j :| FirstMatch(s, i, j) && r.value == s[i..j + |Extension|];
        assert r.value[|r.value| - |Extension|..] == Extension;
      }
      r
    else
      r
  }

  /** The reported match is a maximal run: it does not start in the middle
      of a longer word. */
  lemma FirstMatchIsMaximal(s: string, i: int, j: int)
    requires FirstMatch(s, i, j)
    ensures i == 0 || !IsWordChar(s[i - 1])
  {
    if i > 0 && IsWordChar(s[i - 1]) {
      assert MatchAt(s, i - 1, j);
    }
  }

  /** The keywords of `/create|make|generate/i`. */
  const CreateCues: seq<string> := ["create", "make", "generate"]

  /** The keywords of `/edit|update|change|modify|optimize|rewrite|add|remove/i`. */
  const EditCues: seq<string> := ["edit", "update", "change", "modify", "optimize", "rewrite", "add", "remove"]

  /** The alternation `cues` matches somewhere in `s`, ignoring ASCII case. */
  function MatchesAny(s: string, cues: seq<string>): (r: bool)
    ensures r <==> exists c, k :: c in cues && OccursAt(Lower(s), c, k)
  {
    if |cues| == 0 then
      false
    else if ContainsIgnoreCase(s, cues[0]) then
      true
    else
      var rest := MatchesAny(s, cues[1..]);
      assert forall c :: c in cues <==> c == cues[0] || c in cues[1..];
      rest
  }

  predicate HasCreateCue(s: string) { MatchesAny(s, CreateCues) }

  predicate HasEditCue(s: string) { MatchesAny(s, EditCues) }

  /** The decision of `handleSendMessage`. */
  datatype Intent = FileSuggestion(kind: SuggestionKind, scriptName: string) | GeneralChat

  /** A structured suggestion when a script name occurs and either keyword
      family matches, of kind `create` whenever the creation family matches;
      a streamed conversation otherwise. */
  function Classify(s: string): (r: Intent)
    ensures r.FileSuggestion? <==>
              (exists i, j :: MatchAt(s, i, j))
              && exists c, k :: c in CreateCues + EditCues && OccursAt(Lower(s), c, k)
    ensures r.FileSuggestion? ==>
              ValidScriptName(r.scriptName)
              && exists i, j :: FirstMatch(s, i, j) && r.scriptName == s[i..j + |Extension|]
    ensures r.FileSuggestion? ==>
              (r.kind == Create <==> exists c, k :: c in CreateCues && OccursAt(Lower(s), c, k))
  {
    var name := ExtractScriptName(s);
    assert forall c :: c in CreateCues + EditCues <==> c in CreateCues || c in EditCues;
    if (HasCreateCue(s) || HasEditCue(s)) && name.Some? then
      FileSuggestion(if HasCreateCue(s) then Create else Edit, name.value)
    else
      GeneralChat
  }

  /** Keyword families ignore the case the message was typed in. */
  lemma CuesIgnoreCase(s: string)
    ensures HasCreateCue(Upper(s)) == HasCreateCue(s)
    ensures HasEditCue(Upper(s)) == HasEditCue(s)
  {
    LowerOfUpper(s);
  }

  /** The pattern is unanchored: `Foo.csv` still names `Foo.cs`. */
  lemma ExtensionPrefixStillMatches()
    ensures ExtractScriptName("Foo.csv") == Some("Foo.cs")
  {
    var s := "Foo.csv";
    assert RunEnd(s, 3) == 3;
    assert RunEnd(s, 2) == 3;
    assert RunEnd(s, 1) == 3;
    assert RunEnd(s, 0) == 3;
    assert s[3..6] == Extension;
    assert s[0..6] == "Foo.cs";
    assert ScanFrom(s, 0) == Some("Foo.cs");
  }

  /** Every match contains a dot, so text without one names no script. */
  lemma MatchHasDot(s: string)
    ensures forall i, j :: MatchAt(s, i, j) ==> '.' in s
  {
    forall i, j | MatchAt(s, i, j) ensures '.' in s {
      assert s[j] == s[j..j + |Extension|][0];
    }
  }

  /** A message naming no script is a conversation, whatever it asks for. */
  lemma NoNameMeansChat(s: string)
    requires forall i, j :: !MatchAt(s, i, j)
    ensures Classify(s) == GeneralChat
  {
  }

  /** In particular a message without a dot is a conversation. */
  lemma NoDotMeansChat(s: string)
    requires '.' !in s
    ensures Classify(s) == GeneralChat
  {
    MatchHasDot(s);
  }

  /** "make and edit it" carries keywords of both families but no name. */
  lemma NoNameExample()
    ensures Classify("make and edit it") == GeneralChat
  {
    NoDotMeansChat("make and edit it");
  }

  /** What a match consists of, character by character. */
  lemma MatchFacts(s: string, i: int, j: int)
    ensures MatchAt(s, i, j) ==>
              s[j] == '.' && forall b :: i <= b < j ==> IsWordChar(s[b])
  {
    if MatchAt(s, i, j) {
      assert s[j] == s[j..j + |Extension|][0];
    }
  }

  /** A word cannot occur where its first letter does not. */
  lemma NoOccurrenceWithoutFirst(t: string, w: string, k: nat)
    requires |w| > 0 && (k + |w| <= |t| ==> t[k] != w[0])
    ensures !OccursAt(t, w, k)
  {
  }

  /** The script the worked example's edit request names. */
  lemma ExtractFromEditRequest()
    ensures ExtractScriptName("update Player.cs") == Some("Player.cs")
  {
    var s := "update Player.cs";
    assert MatchAt(s, 7, 13);
    assert !IsWordChar(s[6]);
    assert forall p :: 0 <= p < |s| && s[p] == '.' ==> p == 13;
    forall i', j' | 0 <= i' < 7 ensures !MatchAt(s, i', j') {
      MatchFacts(s, i', j');
    }
    assert FirstMatch(s, 7, 13);
    var name := ExtractScriptName(s);
    var i, j :| FirstMatch(s, i, j) && name.value == s[i..j + |Extension|];
    MatchFacts(s, i, j);
    assert i == 7;
    assert j == 13;
    assert s[7..16] == "Player.cs";
  }

  /** The worked example's edit request carries an edit cue and no creation
      cue. */
  lemma EditRequestCues()
    ensures HasEditCue("update Player.cs") && !HasCreateCue("update Player.cs")
  {
    var s := "update Player.cs";
    var t := Lower(s);
    assert t == "update player.cs";
    assert OccursAt(t, "update", 0);
    forall c, k | c in CreateCues && 0 <= k
      ensures !OccursAt(t, c, k)
    {
      NoOccurrenceWithoutFirst(t, c, k);
    }
  }

  /** The edit request of the worked example is an `edit` suggestion for
      `Player.cs`. */
  lemma ClassifyEditRequest()
    ensures Classify("update Player.cs") == FileSuggestion(Edit, "Player.cs")
  {
    ExtractFromEditRequest();
    EditRequestCues();
  }
}

=== FILE: conversation.dfy ===
/** The message log of the chat: message ids, the messages
    `handleSendMessage` and `handleProjectSelect` append, the status update of
    `handleSuggestionAction`, and the streaming fold of a conversational
    reply. */
module Conversation {
  import opened Wrappers
  import opened Strings
  import opened Types

  // ---------------------------------------------------------------- ids

  /** The four id shapes: `Date.now().toString()` for user messages and the
      greeting, and three suffixed shapes for assistant replies. */
  datatype IdKind = Plain | AiSuggestion | AiFallback | AiStream

  function IdSuffix(k: IdKind): string {
    match k
    case Plain => ""
    case AiSuggestion => "-ai-sugg"
    case AiFallback => "-ai-fallback"
    case AiStream => "-ai"
  }

  /** The id of a message created at millisecond `now`. */
  function MessageId(now: nat, k: IdKind): (id: string)
    ensures AllDigits(id) <==> k == Plain
  {
    var d := NatToDecimal(now);
    assert k != Plain ==> !IsDigit((d + IdSuffix(k))[|d|]);
    d + IdSuffix(k)
  }

  /** Ids determine their timestamp and shape: two ids are equal only when
      both were made in the same millisecond with the same shape. In
      particular a user id (digits only) never equals an assistant reply's id
      (suggestion, fallback or streamed); the greeting shares the plain
      shape. */
  lemma MessageIdsDistinct(t1: nat, k1: IdKind, t2: nat, k2: IdKind)
    ensures MessageId(t1, k1) == MessageId(t2, k2) <==> t1 == t2 && k1 == k2
  {
    if MessageId(t1, k1) == MessageId(t2, k2) {
      SplitDigitPrefix(NatToDecimal(t1), IdSuffix(k1), NatToDecimal(t2), IdSuffix(k2));
      NatToDecimalInjective(t1, t2);
      assert IdSuffix(k1) == IdSuffix(k2);
      match k1 {
        case Plain =>
        case AiSuggestion =>
        case AiFallback =>
        case AiStream =>
      }
    }
  }

  // ---------------------------------------------------------------- messages

  function UserMessage(now: nat, text: string): (m: ChatMessage)
    ensures m.sender == User && m.text == text && m.suggestion.None?
    ensures AllDigits(m.id)
  {
    ChatMessage(MessageId(now, Plain), User, text, None)
  }

  const GreetingLead := "Hello! I've scanned "
  const GreetingTail := " C# scripts and I'm ready to help. How can I assist you?"

  /** The greeting synthesised on entering READY; it states the number of
      scripts scanned, in decimal, between a fixed lead and tail. */
  function Greeting(now: nat, count: nat): (m: ChatMessage)
    ensures m.sender == Ai && m.suggestion.None? && AllDigits(m.id)
    ensures |GreetingLead| + |GreetingTail| < |m.text|
    ensures m.text[..|GreetingLead|] == GreetingLead
    ensures m.text[|m.text| - |GreetingTail|..] == GreetingTail
    ensures AllDigits(m.text[|GreetingLead|..|m.text| - |GreetingTail|])
    ensures DecimalValue(m.text[|GreetingLead|..|m.text| - |GreetingTail|]) == count
  {
    var digits := NatToDecimal(count);
    var text := GreetingLead + digits + GreetingTail;
    assert text[|GreetingLead|..|text| - |GreetingTail|] == digits;
    ChatMessage(MessageId(now, Plain), Ai, text, None)
  }

  /** The parsed JSON body of a structured reply. */
  datatype Reply = Reply(explanation: string, code: string, changes: Option<seq<string>>)

  const FallbackText := "Sorry, I couldn't generate a valid response. Please try again."

  /** The one assistant message the structured branch appends: a pending
      suggestion with empty text when the reply parsed, the fixed apology
      with no suggestion when the request or the parse failed. */
  function ReplyMessage(now: nat, kind: SuggestionKind, name: string, parsed: Option<Reply>): (m: ChatMessage)
    ensures m.sender == Ai && !AllDigits(m.id)
    ensures m.suggestion.Some? <==> parsed.Some?
    ensures parsed.Some? ==>
              m.text == "" && m.id == MessageId(now, AiSuggestion)
              && m.suggestion.value.status == Pending
              && m.suggestion.value.kind == kind
              && m.suggestion.value.scriptName == name
              && Reply(m.suggestion.value.explanation, m.suggestion.value.code,
                       m.suggestion.value.changes) == parsed.value
    ensures parsed.None? ==> m.text == FallbackText && m.id == MessageId(now, AiFallback)
  {
    match parsed
    case Some(reply) =>
      var s := Suggestion(kind, name, reply.code, reply.explanation, reply.changes, Pending);
      ChatMessage(MessageId(now, AiSuggestion), Ai, "", Some(s))
    case None =>
      ChatMessage(MessageId(now, AiFallback), Ai, FallbackText, None)
  }

  /** `messages.find(m => m.id === id)`: index of the first message with
      that id. */
  function FindMessage(log: seq<ChatMessage>, id: string): (r: Option<nat>)
    ensures r.None? <==> forall k :: 0 <= k < |log| ==> log[k].id != id
    ensures r.Some? ==> r.value < |log| && log[r.value].id == id
    ensures r.Some? ==> forall k :: 0 <= k < r.value ==> log[k].id != id
  {
    if |log| == 0 then None
    else if log[0].id == id then Some(0)
    else
      match FindMessage(log[1..], id)
      case None => None
      case Some(k) => Some(k + 1)
  }

  /** The `setMessages` of `handleSuggestionAction`: every message with the
      id gets its suggestion's status replaced. A message without a
      suggestion is left as it is. */
  function SetStatus(log: seq<ChatMessage>, id: string, st: Status): (r: seq<ChatMessage>)
    ensures |r| == |log|
    ensures forall k :: 0 <= k < |log| && (log[k].id != id || log[k].suggestion.None?) ==> r[k] == log[k]
    ensures forall k :: 0 <= k < |log| && log[k].id == id && log[k].suggestion.Some? ==>
              r[k].suggestion == Some(log[k].suggestion.value.(status := st))
              && r[k].(suggestion := log[k].suggestion) == log[k]
  {
    seq(|log|, k requires 0 <= k < |log| =>
      if log[k].id == id && log[k].suggestion.Some? then
        log[k].(suggestion := Some(log[k].suggestion.value.(status := st)))
      else log[k])
  }

  // ---------------------------------------------------------------- streaming

  /** The cursor shown at the end of a reply that is still streaming. */
  const Cursor := "\U{258D}"

  const StreamErrorText := "Sorry, an error occurred."

  /** Replaces the text of every message with the id. */
  function SetText(log: seq<ChatMessage>, id: string, t: string): (r: seq<ChatMessage>)
    ensures |r| == |log|
    ensures forall k :: 0 <= k < |log| && log[k].id != id ==> r[k] == log[k]
    ensures forall k :: 0 <= k < |log| && log[k].id == id ==> r[k].text == t && r[k].(text := log[k].text) == log[k]
  {
    seq(|log|, k requires 0 <= k < |log| => if log[k].id == id then log[k].(text := t) else log[k])
  }

  /** A later text replaces an earlier one. */
  lemma SetTextTwice(log: seq<ChatMessage>, id: string, a: string, b: string)
    ensures SetText(SetText(log, id, a), id, b) == SetText(log, id, b)
  {
  }

  /** The chunks received so far, concatenated. */
  function Concat(chunks: seq<string>): string {
    if |chunks| == 0 then "" else Concat(chunks[..|chunks| - 1]) + chunks[|chunks| - 1]
  }

  lemma ConcatPrefix(chunks: seq<string>, i: nat)
    requires i < |chunks|
    ensures Concat(chunks[..i + 1]) == Concat(chunks[..i]) + chunks[i]
  {
    assert chunks[..i + 1][..i] == chunks[..i];
  }

  /** How the stream ended: after its last chunk, or by a failure. */
  datatype StreamEnd = Completed | Failed

  /** The chunks the backend delivered, and how the stream ended. */
  datatype Stream = Stream(chunks: seq<string>, end: StreamEnd)

  /** The text the reply settles on. */
  function FinalText(s: Stream): string {
    match s.end
    case Completed => Concat(s.chunks)
    case Failed => StreamErrorText
  }

  function Placeholder(id: string): ChatMessage {
    ChatMessage(id, Ai, Cursor, None)
  }

  /** The state of the fold: the text accumulated so far and the log. */
  datatype Progress = Progress(acc: string, log: seq<ChatMessage>)

  /** One chunk: accumulate it and show the accumulated text, followed by
      the cursor, in every message with the id; nothing else changes. */
  function Step(id: string, p: Progress, chunk: string): (r: Progress)
    ensures r.acc == p.acc + chunk
    ensures |r.log| == |p.log|
    ensures forall k :: 0 <= k < |p.log| ==>
              r.log[k] == if p.log[k].id == id then p.log[k].(text := p.acc + chunk + Cursor) else p.log[k]
  {
    var acc := p.acc + chunk;
    Progress(acc, SetText(p.log, id, acc + Cursor))
  }

  /** The fold accumulates the concatenation of its chunks and leaves the
      message showing that text followed by the cursor. */
  function Fold(id: string, p: Progress, chunks: seq<string>): (r: Progress)
    ensures r.acc == p.acc + Concat(chunks)
    ensures r.log == if |chunks| == 0 then p.log else SetText(p.log, id, p.acc + Concat(chunks) + Cursor)
    decreases |chunks|
  {
    if |chunks| == 0 then p
    else
      var q := Step(id, p, chunks[0]);
      ConcatFront(chunks);
      SetTextTwice(p.log, id, q.acc + Cursor, q.acc + Concat(chunks[1..]) + Cursor);
      Fold(id, q, chunks[1..])
  }

  lemma {:induction false} ConcatFront(chunks: seq<string>)
    requires |chunks| > 0
    ensures Concat(chunks) == chunks[0] + Concat(chunks[1..])
    decreases |chunks|
  {
    if |chunks| > 1 {
      var n := |chunks|;
      ConcatFront(chunks[..n - 1]);
      assert chunks[..n - 1][1..] == chunks[1..][..n - 2];
      assert chunks[..n - 1][0] == chunks[0];
      assert chunks[1..][n - 2] == chunks[n - 1];
    } else {
      assert chunks[..0] == [];
      assert chunks[1..] == [];
    }
  }

  /** The streaming branch: a placeholder, one update per chunk, then the
      final text. The streamed reply is one new assistant message holding the
      final text; an earlier message changes only if it shares the id. */
  function StreamReply(log: seq<ChatMessage>, id: string, s: Stream): (r: seq<ChatMessage>)
    ensures |r| == |log| + 1
    ensures r[|log|] == ChatMessage(id, Ai, FinalText(s), None)
    ensures forall k :: 0 <= k < |log| ==> r[k] == if log[k].id == id then log[k].(text := FinalText(s)) else log[k]
  {
    var p := Progress("", log + [Placeholder(id)]);
    var folded := Fold(id, p, s.chunks);
    SetTextTwice(p.log, id, Concat(s.chunks) + Cursor, FinalText(s));
    SetText(folded.log, id, FinalText(s))
  }

  /** The `for await` loop of the streaming branch. Returns the final log,
      every log the component renders on the way (`logs`), and the text the
      reply shows in each (`shown`): the bare cursor on the placeholder, the
      accumulated text plus cursor after each chunk, and the final text. */
  method RunStream(log: seq<ChatMessage>, id: string, s: Stream)
    returns (r: seq<ChatMessage>, logs: seq<seq<ChatMessage>>, shown: seq<string>)
    ensures r == StreamReply(log, id, s)
    ensures |shown| == |s.chunks| + 2 && |logs| == |shown|
    ensures forall k :: 0 <= k <= |s.chunks| ==> shown[k] == Concat(s.chunks[..k]) + Cursor
    ensures shown[|s.chunks| + 1] == FinalText(s)
    ensures logs[0] == log + [Placeholder(id)] && logs[0][|log|].text == shown[0]
    ensures forall k :: 0 < k < |logs| ==> logs[k] == SetText(log + [Placeholder(id)], id, shown[k])
    ensures logs[|logs| - 1] == r
  {
    var base := log + [Placeholder(id)];
    r, logs, shown := StreamChunks(base, id, s.chunks);
    var last := FinalText(s);
    Overwrite(base, id, |s.chunks| == 0, Concat(s.chunks) + Cursor, last);
    LogsFollowShown(base, id, logs, shown, last);
    r := SetText(r, id, last);
    shown := shown + [last];
    logs := logs + [r];
  }

  /** The loop body proper: one update per chunk, starting from the log with
      the placeholder. Ends with the fold's log. */
  method StreamChunks(base: seq<ChatMessage>, id: string, chunks: seq<string>)
    returns (r: seq<ChatMessage>, logs: seq<seq<ChatMessage>>, shown: seq<string>)
    ensures r == Fold(id, Progress("", base), chunks).log
    ensures |shown| == |chunks| + 1 && |logs| == |shown|
    ensures forall k :: 0 <= k <= |chunks| ==> shown[k] == Concat(chunks[..k]) + Cursor
    ensures logs[0] == base && logs[|chunks|] == r
    ensures forall k :: 0 < k < |logs| ==> logs[k] == SetText(base, id, shown[k])
  {
    r := base;
    logs := [base];
    shown := [Cursor];
    var full := "";
    var i := 0;
    assert chunks[..0] == [];
    while i < |chunks|
      invariant 0 <= i <= |chunks|
      invariant full == Concat(chunks[..i])
      invariant r == if i == 0 then base else SetText(base, id, full + Cursor)
      invariant |shown| == i + 1 && |logs| == i + 1
      invariant forall k :: 0 <= k <= i ==> shown[k] == Concat(chunks[..k]) + Cursor
      invariant logs[0] == base && logs[i] == r
      invariant forall k :: 0 < k <= i ==> logs[k] == SetText(base, id, shown[k])
    {
      ConcatPrefix(chunks, i);
      var next := full + chunks[i];
      Overwrite(base, id, i == 0, full + Cursor, next + Cursor);
      LogsFollowShown(base, id, logs, shown, next + Cursor);
      full := next;
      r := SetText(r, id, full + Cursor);
      shown := shown + [full + Cursor];
      logs := logs + [r];
      i := i + 1;
    }
    assert chunks[..i] == chunks;
    assert "" + full == full;
    assert Fold(id, Progress("", base), chunks).log == if i == 0 then base else SetText(base, id, "" + full + Cursor);
  }

  /** A text update on the placeholder log, or on a log already updated,
      gives the same log as updating the placeholder log directly. */
  lemma Overwrite(base: seq<ChatMessage>, id: string, first: bool, earlier: string, t: string)
    ensures SetText(if first then base else SetText(base, id, earlier), id, t) == SetText(base, id, t)
  {
    if !first {
      SetTextTwice(base, id, earlier, t);
    }
  }

  /** Recording one more rendered log, the placeholder log updated to `t`,
      keeps every recorded log equal to the placeholder log showing its
      text. */
  lemma LogsFollowShown(base: seq<ChatMessage>, id: string, logs: seq<seq<ChatMessage>>, shown: seq<string>, t: string)
    requires |logs| == |shown|
    requires forall k :: 0 < k < |logs| ==> logs[k] == SetText(base, id, shown[k])
    ensures forall k :: 0 < k < |logs| + 1 ==> (logs + [SetText(base, id, t)])[k] == SetText(base, id, (shown + [t])[k])
  {
  }

  /** Three chunks pass through three cursor-suffixed texts and settle on
      their concatenation, which the streamed reply then holds. */
  lemma StreamingExample(log: seq<ChatMessage>, id: string)
    ensures var s := Stream(["Hel", "lo ", "world"], Completed);
            Concat(s.chunks[..1]) + Cursor == "Hel" + Cursor
            && Concat(s.chunks[..2]) + Cursor == "Hello " + Cursor
            && Concat(s.chunks[..3]) + Cursor == "Hello world" + Cursor
            && StreamReply(log, id, s)[|log|] == ChatMessage(id, Ai, "Hello world", None)
  {
    var c := ["Hel", "lo ", "world"];
    assert c[..1][..0] == [];
    assert c[..2][..1] == c[..1];
    assert c[..3][..2] == c[..2];
    assert c[..3] == c;
    var s := Stream(c, Completed);
    assert Concat(c[..1]) == "Hel";
    assert Concat(c[..2]) == "Hel" + "lo ";
    assert Concat(c) == "Hel" + "lo " + "world" == "Hello world";
    assert FinalText(s) == "Hello world";
    assert StreamReply(log, id, s)[|log|] == ChatMessage(id, Ai, FinalText(s), None);
  }
}

=== FILE: directory.dfy ===
/** The project folder behind the directory handle: the non-recursive listing
    `getDirectoryFiles` reads, and the create-or-overwrite `writeFile`. */
module Directory {
  import opened Wrappers
  import opened Strings
  import opened Types

  datatype EntryKind = FileEntry(content: string) | DirectoryEntry

  datatype Entry = Entry(name: string, kind: EntryKind)

  /** The folder's immediate entries, in the order the handle lists them. */
  type Folder = seq<Entry>

  /** Entry names are unique within a folder, as on any file system. */
  predicate UniqueNames(f: Folder) {
    forall i, j :: 0 <= i < j < |f| ==> f[i].name != f[j].name
  }

  /** The entry named `n`, if any (the first one, should names repeat). */
  function Lookup(f: Folder, n: string): (r: Option<EntryKind>)
    ensures r.None? <==> forall k :: 0 <= k < |f| ==> f[k].name != n
    ensures r.Some? ==> Entry(n, r.value) in f
  {
    if |f| == 0 then None
    else if f[0].name == n then Some(f[0].kind)
    else Lookup(f[1..], n)
  }

  /** An entry `getDirectoryFiles` keeps: a file whose name ends in `.cs`. */
  predicate IsScriptEntry(e: Entry) {
    e.kind.FileEntry? && EndsWith(e.name, ScriptExtension)
  }

  function ScriptOf(e: Entry): ScriptFile
    requires e.kind.FileEntry?
  {
    ScriptFile(e.name, e.kind.content, FileHandle(e.name))
  }

  /** `getDirectoryFiles`: one record per script entry, in listing order;
      sub-directories are not entered. */
  function Scan(f: Folder): (r: seq<ScriptFile>)
    ensures |r| <= |f|
    ensures forall s :: s in r <==> exists e :: e in f && IsScriptEntry(e) && s == ScriptOf(e)
  {
    if |f| == 0 then
      []
    else
      var rest := Scan(f[1..]);
      assert forall e :: e in f <==> e == f[0] || e in f[1..];
      if IsScriptEntry(f[0]) then [ScriptOf(f[0])] + rest else rest
  }

  /** Scanning distributes over the listing: the snapshot keeps the folder's
      order. */
  lemma {:induction false} ScanAppend(a: Folder, b: Folder)
    ensures Scan(a + b) == Scan(a) + Scan(b)
  {
    if |a| > 0 {
      assert (a + b)[1..] == a[1..] + b;
      ScanAppend(a[1..], b);
    } else {
      assert a + b == b;
    }
  }

  /** `scripts.find(s => s.name === n)`: the first record named `n`. */
  function FindScript(scripts: seq<ScriptFile>, n: string): (r: Option<ScriptFile>)
    ensures r.None? <==> forall k :: 0 <= k < |scripts| ==> scripts[k].name != n
    ensures r.Some? ==> r.value.name == n
    ensures r.Some? ==> exists k :: 0 <= k < |scripts| && scripts[k] == r.value
                                  && forall j :: 0 <= j < k ==> scripts[j].name != n
  {
    if |scripts| == 0 then None
    else if scripts[0].name == n then Some(scripts[0])
    else
      var r := FindScript(scripts[1..], n);
      if r.Some? then
        var k :| 0 <= k < |scripts| - 1 && scripts[1..][k] == r.value
                 && forall j :: 0 <= j < k ==> scripts[1..][j].name != n;
        assert scripts[k + 1] == r.value;
        r
      else r
  }

  /** Looking a `.cs` name up in the snapshot finds exactly the folder's file
      of that name, with its current content. */
  lemma {:induction false} FindInScan(f: Folder, n: string)
    requires UniqueNames(f)
    requires EndsWith(n, ScriptExtension)
    ensures FindScript(Scan(f), n) ==
              match Lookup(f, n)
              case Some(FileEntry(c)) => Some(ScriptFile(n, c, FileHandle(n)))
              case _ => None
  {
    if |f| > 0 {
      assert UniqueNames(f[1..]) by {
        forall i, j | 0 <= i < j < |f| - 1 ensures f[1..][i].name != f[1..][j].name {
          assert f[1..][i] == f[i + 1] && f[1..][j] == f[j + 1];
        }
      }
      FindInScan(f[1..], n);
      if f[0].name == n && !IsScriptEntry(f[0]) {
        assert Lookup(f[1..], n).None? by {
          forall k | 0 <= k < |f| - 1 ensures f[1..][k].name != n {
            assert f[1..][k] == f[k + 1];
          }
        }
      }
    }
  }

  /** `writeFile`: `getFileHandle(name, {create: true})` then a full write.
      It fails when the device refuses (`deviceOk` false) or when `name` is
      a sub-directory; otherwise it creates the file or replaces its content. */
  function WriteFile(f: Folder, name: string, content: string, deviceOk: bool): (r: Option<Folder>)
    ensures r.Some? <==> deviceOk && Lookup(f, name) != Some(DirectoryEntry)
    ensures r.Some? ==> Lookup(r.value, name) == Some(FileEntry(content))
    ensures r.Some? ==> forall n :: n != name ==> Lookup(r.value, n) == Lookup(f, n)
    ensures r.Some? ==> |r.value| == |f| + (if Lookup(f, name).None? then 1 else 0)
    ensures r.Some? && UniqueNames(f) ==> UniqueNames(r.value)
  {
    if deviceOk then Put(f, name, content) else None
  }

  /** Create-or-overwrite of one file, keeping the position of an existing
      file and listing a new one last. */
  function Put(f: Folder, name: string, content: string): (r: Option<Folder>)
    ensures r.Some? <==> Lookup(f, name) != Some(DirectoryEntry)
    ensures r.Some? ==> Lookup(r.value, name) == Some(FileEntry(content))
    ensures r.Some? ==> forall n :: n != name ==> Lookup(r.value, n) == Lookup(f, n)
    ensures r.Some? ==> |r.value| == |f| + (if Lookup(f, name).None? then 1 else 0)
    ensures r.Some? && UniqueNames(f) ==> UniqueNames(r.value)
  {
    if |f| == 0 then
      Some([Entry(name, FileEntry(content))])
    else if f[0].name == name then
      if f[0].kind.DirectoryEntry? then None
      else
        var g := [Entry(name, FileEntry(content))] + f[1..];
        assert g[1..] == f[1..];
        UniqueCons(f);
        UniqueCons(g);
        Some(g)
    else
      match Put(f[1..], name, content)
      case None => None
      case Some(t) =>
        var g := [f[0]] + t;
        assert g[1..] == t;
        UniqueCons(f);
        UniqueCons(g);
        Some(g)
  }

  /** A listing has unique names exactly when its first name does not occur
      again and the rest has unique names. */
  lemma UniqueCons(f: Folder)
    requires |f| > 0
    ensures UniqueNames(f) <==> UniqueNames(f[1..]) && Lookup(f[1..], f[0].name).None?
  {
    if UniqueNames(f[1..]) && Lookup(f[1..], f[0].name).None? {
      forall i, j | 0 <= i < j < |f| ensures f[i].name != f[j].name {
        assert f[j] == f[1..][j - 1];
        if i > 0 { assert f[i] == f[1..][i - 1]; }
      }
    }
    if UniqueNames(f) {
      forall i, j | 0 <= i < j < |f| - 1 ensures f[1..][i].name != f[1..][j].name {
        assert f[1..][i] == f[i + 1] && f[1..][j] == f[j + 1];
      }
      forall k | 0 <= k < |f| - 1 ensures f[1..][k].name != f[0].name {
        assert f[1..][k] == f[k + 1];
      }
    }
  }

  /** After a successful write of a `.cs` file and a rescan, the snapshot
      holds that file with the written content. */
  lemma WriteThenScan(f: Folder, name: string, content: string, deviceOk: bool)
    requires UniqueNames(f)
    requires EndsWith(name, ScriptExtension)
    requires WriteFile(f, name, content, deviceOk).Some?
    ensures FindScript(Scan(WriteFile(f, name, content, deviceOk).value), name)
              == Some(ScriptFile(name, content, FileHandle(name)))
  {
    FindInScan(WriteFile(f, name, content, deviceOk).value, name);
  }
}

=== FILE: instruction.dfy ===
/** `getSystemInstruction`: the system context given to the assistant, which
    embeds every script of the current snapshot, in snapshot order. */
module Instruction {
  import opened Strings
  import opened Types

  const Separator := "\n\n---\n\n"

  const Preamble := "You are a helpful Unity AI Assistant. The user has loaded a Unity project. You have full access to the content of all scripts.\n      Current project scripts:\n      "

  const Instructions := "\n      \n      When asked to create or modify a script, you MUST respond with a single JSON object.\n      For CREATING a script: Respond with { \"explanation\": \"...\", \"code\": \"...\" }.\n      For EDITING a script: Respond with { \"explanation\": \"...\", \"changes\": [\"...\", \"...\"], \"code\": \"...\" }.\n      Do not use markdown fences or any other text outside the JSON object."

  /** One script as it appears in the context: a comment line with its name,
      a blank line, then its content. */
  function Render(f: ScriptFile): string {
    "// " + f.name + "\n\n" + f.content
  }

  /** The rendered scripts joined by `Separator` (`Array.prototype.join`):
      empty for no scripts, and otherwise as long as the pieces and the
      separators between them. */
  function ScriptContext(scripts: seq<ScriptFile>): (r: string)
    ensures |scripts| == 0 ==> r == ""
    ensures |scripts| > 0 ==> |r| + |Separator| == Offset(scripts, |scripts|)
  {
    if |scripts| == 0 then ""
    else if |scripts| == 1 then Render(scripts[0])
    else Render(scripts[0]) + Separator + ScriptContext(scripts[1..])
  }

  /** The instruction is the fixed preamble, then exactly the joined
      context, then the fixed reply instructions; `InstructionEmbedsEveryScript`
      places each script inside it. */
  function SystemInstruction(scripts: seq<ScriptFile>): (r: string)
    ensures |r| == |Preamble| + |ScriptContext(scripts)| + |Instructions|
    ensures OccursAt(r, Preamble, 0)
    ensures OccursAt(r, ScriptContext(scripts), |Preamble|)
    ensures OccursAt(r, Instructions, |r| - |Instructions|)
  {
    var ctx := ScriptContext(scripts);
    var r := Preamble + ctx + Instructions;
    Framed(Preamble, ctx, Instructions);
    r
  }

  /** A concatenation begins with its first part, holds its middle part right
      after it, and ends with its last. */
  lemma Framed(p: string, c: string, q: string)
    ensures OccursAt(p + c + q, p, 0)
    ensures OccursAt(p + c + q, c, |p|)
    ensures OccursAt(p + c + q, q, |p + c + q| - |q|)
  {
    assert (p + c + q)[0..|p|] == p;
    assert (p + c + q)[|p|..|p| + |c|] == c;
    assert (p + c + q)[|p + c + q| - |q|..|p + c + q|] == q;
  }

  /** Framing the joined context keeps every rendering at its offset,
      shifted by the length of the frame's front. */
  lemma FramedPiece(p: string, scripts: seq<ScriptFile>, q: string, i: nat)
    requires i < |scripts|
    ensures OccursAt(p + ScriptContext(scripts) + q, Render(scripts[i]), |p| + Offset(scripts, i))
  {
    ContextPieces(scripts, i);
    OccursInContext(p, ScriptContext(scripts), q, Render(scripts[i]), Offset(scripts, i));
  }

  /** Where the `i`-th rendered script starts in the joined context. */
  function Offset(scripts: seq<ScriptFile>, i: nat): nat
    requires i <= |scripts|
  {
    if i == 0 then 0
    else |Render(scripts[0])| + |Separator| + Offset(scripts[1..], i - 1)
  }

  /** The `i`-th script's rendering sits at its offset in the joined context:
      the scripts appear in list order. */
  lemma {:induction false} ContextPieces(scripts: seq<ScriptFile>, i: nat)
    requires i < |scripts|
    ensures OccursAt(ScriptContext(scripts), Render(scripts[i]), Offset(scripts, i))
  {
    var head := Render(scripts[0]);
    if |scripts| == 1 {
      assert ScriptContext(scripts)[0..|head|] == head;
    } else {
      var rest := scripts[1..];
      var ctx := ScriptContext(scripts);
      assert ctx == head + Separator + ScriptContext(rest);
      if i == 0 {
        assert ctx[0..|head|] == head;
      } else {
        ContextPieces(rest, i - 1);
        assert scripts[i] == rest[i - 1];
        OccursInContext(head + Separator, ScriptContext(rest), "", Render(rest[i - 1]), Offset(rest, i - 1));
        assert head + Separator + ScriptContext(rest) + "" == ctx;
      }
    }
  }

  /** Right after the `i`-th rendering, unless it is the last, comes the
      separator. */
  lemma {:induction false} ContextSeparators(scripts: seq<ScriptFile>, i: nat)
    requires i + 1 < |scripts|
    ensures OccursAt(ScriptContext(scripts), Separator, Offset(scripts, i) + |Render(scripts[i])|)
  {
    var head, rest := Render(scripts[0]), scripts[1..];
    var ctx := ScriptContext(scripts);
    assert ctx == head + Separator + ScriptContext(rest);
    if i == 0 {
      OccursSelf(Separator);
      OccursInContext(head, Separator, ScriptContext(rest), Separator, 0);
      assert head + Separator + ScriptContext(rest) == ctx;
    } else {
      var k := Offset(rest, i - 1) + |Render(rest[i - 1])|;
      assert Offset(scripts, i) + |Render(scripts[i])| == |head + Separator| + k by {
        assert scripts[i] == rest[i - 1];
        assert Offset(scripts, i) == |head| + |Separator| + Offset(rest, i - 1);
      }
      ContextSeparators(rest, i - 1);
      OccursInContext(head + Separator, ScriptContext(rest), "", Separator, k);
      assert head + Separator + ScriptContext(rest) + "" == ctx;
    }
  }

  /** The instruction holds every script's rendering at its offset after the
      preamble, so the scripts appear in it in list order. */
  lemma InstructionPlacesEveryScript(scripts: seq<ScriptFile>, i: nat)
    requires i < |scripts|
    ensures OccursAt(SystemInstruction(scripts), Render(scripts[i]), |Preamble| + Offset(scripts, i))
  {
    FramedPiece(Preamble, scripts, Instructions, i);
  }

  /** The instruction names every script of the snapshot and embeds its full
      content. */
  lemma InstructionEmbedsEveryScript(scripts: seq<ScriptFile>, i: nat)
    requires i < |scripts|
    ensures Contains(SystemInstruction(scripts), "// " + scripts[i].name)
    ensures Contains(SystemInstruction(scripts), scripts[i].content)
  {
    FramedPiece(Preamble, scripts, Instructions, i);
    RenderedPartsOccur(SystemInstruction(scripts), scripts[i], |Preamble| + Offset(scripts, i));
  }

  /** Wherever a rendering occurs, the script's name comment and its content
      occur. */
  lemma RenderedPartsOccur(t: string, f: ScriptFile, k: int)
    requires OccursAt(t, Render(f), k)
    ensures Contains(t, "// " + f.name) && Contains(t, f.content)
  {
    var pre := "// " + f.name;
    assert OccursAt(Render(f), pre, 0) by {
      assert Render(f)[0..|pre|] == pre;
    }
    OccursTransitive(t, Render(f), k, pre, 0);
    assert OccursAt(Render(f), f.content, |pre| + 2) by {
      assert Render(f) == pre + "\n\n" + f.content;
    }
    OccursTransitive(t, Render(f), k, f.content, |pre| + 2);
  }

  /** With no scripts the context is empty, which is not an error. */
  lemma EmptySnapshotInstruction()
    ensures SystemInstruction([]) == Preamble + Instructions
  {
  }
}

=== FILE: properties.dfy ===
/** Properties that relate several handlers of the `App` component: the
    state invariant every handler keeps, the suggestion lifecycle, the
    consequences of the handler not checking the status, and the busy state
    left behind by a conversation without a chat session. */
module AppProperties {
  import opened Wrappers
  import opened Strings
  import opened Types
  import opened Classifier
  import opened Instruction
  import opened Directory
  import opened Conversation
  import opened AppModel

  /** Every suggestion in the log is an assistant's, and names a script the
      classifier's pattern can produce. */
  ghost predicate SuggestionsWellFormed(log: seq<ChatMessage>) {
    forall k :: 0 <= k < |log| && log[k].suggestion.Some? ==>
      log[k].sender == Ai && ValidScriptName(log[k].suggestion.value.scriptName)
  }

  /** Every record of a script list is a `.cs` file holding its own handle,
      as the listing builds them. */
  predicate Listed(scripts: seq<ScriptFile>) {
    forall k :: 0 <= k < |scripts| ==>
      EndsWith(scripts[k].name, ScriptExtension) && scripts[k].handle == FileHandle(scripts[k].name)
  }

  lemma ScanListed(f: Folder)
    ensures Listed(Scan(f))
  {
    var r := Scan(f);
    forall k | 0 <= k < |r|
      ensures EndsWith(r[k].name, ScriptExtension) && r[k].handle == FileHandle(r[k].name)
    {
      assert r[k] in r;
    }
  }

  /** The state invariant:
      - a directory handle is held exactly in SCANNING and READY, and its
        folder has unique names;
      - the script list is a listing, empty before a folder is held;
      - a chat session exists only in READY with scripts, always exists
        there, and embeds the current scripts (never an older list);
      - the viewed script is one of the listed ones;
      - suggestions are well formed. */
  ghost predicate Wf(a: App) {
    && (a.directory.Some? <==> a.phase == Scanning || a.phase == Ready)
    && (a.directory.Some? ==> UniqueNames(a.directory.value))
    && Listed(a.scripts)
    && (a.phase != Scanning && a.phase != Ready ==> a.scripts == [])
    && (a.chat.Some? ==> a.phase == Ready && |a.scripts| > 0
                         && a.chat.value.systemInstruction == SystemInstruction(a.scripts))
    && (a.phase == Ready && |a.scripts| > 0 ==> a.chat.Some?)
    && (a.selected.Some? ==> a.selected.value in a.scripts)
    && SuggestionsWellFormed(a.messages)
  }

  /** In READY the script list is the folder's current listing. Every
      transition keeps this except an approve whose rescan throws, which
      leaves the written folder with the earlier list
      (`ApproveRescanFailure`). */
  ghost predicate Synced(a: App) {
    a.phase == Ready && a.directory.Some? ==> a.scripts == Scan(a.directory.value)
  }

  lemma InitWf(pickerAvailable: bool)
    ensures Wf(Init(pickerAvailable))
  {
  }

  lemma SelectWf(a: App, pick: Pick, now: nat)
    requires Wf(a) && a.phase == Selecting
    requires pick.Picked? ==> UniqueNames(pick.folder)
    ensures Wf(Select(a, pick, now)) && Synced(Select(a, pick, now))
  {
    if pick.Picked? && pick.scanError.None? {
      ScanListed(pick.folder);
    }
  }

  lemma ViewScriptWf(a: App, k: nat)
    requires Wf(a) && k < |a.scripts|
    ensures Wf(ViewScript(a, k))
  {
  }

  /** A handler that changes only the log (and the busy fields) keeps the
      invariant when the new log's suggestions are well formed. */
  lemma LogOnlyChangeWf(a: App, r: App)
    requires Wf(a)
    requires r.phase == a.phase && r.directory == a.directory && r.scripts == a.scripts
    requires r.chat == a.chat && r.selected == a.selected
    requires SuggestionsWellFormed(r.messages)
    ensures Wf(r)
  {
  }

  /** The reply of the structured branch, for a name the pattern can
      produce, keeps suggestions well formed. */
  lemma ReplyWellFormed(log: seq<ChatMessage>, now: nat, kind: SuggestionKind, name: string, parsed: Option<Reply>)
    requires SuggestionsWellFormed(log) && ValidScriptName(name)
    ensures SuggestionsWellFormed(log + [ReplyMessage(now, kind, name, parsed)])
  {
  }

  /** Streaming rewrites texts only. */
  lemma StreamWellFormed(log: seq<ChatMessage>, id: string, stream: Stream)
    requires SuggestionsWellFormed(log)
    ensures SuggestionsWellFormed(StreamReply(log, id, stream))
  {
  }

  /** Sending keeps the invariant: the only suggestion it adds names the
      classifier's match, and streaming changes only texts. */
  lemma SendMessageWf(a: App, text: string, sentAt: nat, repliedAt: nat, parsed: Option<Reply>, stream: Stream)
    requires Wf(a)
    ensures Wf(SendMessage(a, text, sentAt, repliedAt, parsed, stream))
    ensures Synced(a) ==> Synced(SendMessage(a, text, sentAt, repliedAt, parsed, stream))
  {
    var r := SendMessage(a, text, sentAt, repliedAt, parsed, stream);
    var withUser := a.messages + [UserMessage(sentAt, text)];
    assert SuggestionsWellFormed(withUser);
    if Classify(text).FileSuggestion? {
      ReplyWellFormed(withUser, repliedAt, Classify(text).kind, Classify(text).scriptName, parsed);
    } else if a.chat.Some? {
      StreamWellFormed(withUser, MessageId(repliedAt, AiStream), stream);
    }
    LogOnlyChangeWf(a, r);
  }

  lemma SubmitWf(a: App, input: string, sentAt: nat, repliedAt: nat, parsed: Option<Reply>, stream: Stream)
    requires Wf(a)
    ensures Wf(Submit(a, input, sentAt, repliedAt, parsed, stream))
    ensures Synced(a) ==> Synced(Submit(a, input, sentAt, repliedAt, parsed, stream))
  {
    if Trim(input) != "" && !a.isLoading {
      SendMessageWf(a, Trim(input), sentAt, repliedAt, parsed, stream);
    }
  }

  /** Setting a status keeps suggestions well formed. */
  lemma SetStatusWellFormed(log: seq<ChatMessage>, id: string, st: Status)
    requires SuggestionsWellFormed(log)
    ensures SuggestionsWellFormed(SetStatus(log, id, st))
  {
  }

  /** After the write and the rescan the invariant holds: a successful
      listing contains the written script, so in READY the chat session is
      rebuilt from the new list; a failed write or listing keeps the earlier
      list and session. The list is the folder's listing again whenever the
      rescan succeeds. */
  lemma WriteSuggestionWf(a: App, s: Suggestion, writeOk: bool, listingOk: bool)
    requires Wf(a) && a.directory.Some?
    requires ValidScriptName(s.scriptName)
    ensures Wf(WriteSuggestion(a, s, writeOk, listingOk))
    ensures listingOk && Synced(a) ==> Synced(WriteSuggestion(a, s, writeOk, listingOk))
  {
    var w := WriteFile(a.directory.value, s.scriptName, s.code, writeOk);
    var r := WriteSuggestion(a, s, writeOk, listingOk);
    if w.Some? && listingOk {
      WriteThenScan(a.directory.value, s.scriptName, s.code, writeOk);
      ScanListed(w.value);
      var b := Rescan(a.(directory := w, toast := s.scriptName + SavedSuffix), listingOk).value;
      assert b.scripts == Scan(w.value);
      assert |b.scripts| > 0;
      assert r == b.(isLoading := false, loadingMessage := "");
    }
  }

  lemma ActWf(a: App, id: string, d: Decision, writeOk: bool, listingOk: bool)
    requires Wf(a)
    ensures Wf(Act(a, id, d, writeOk, listingOk))
    ensures listingOk && Synced(a) ==> Synced(Act(a, id, d, writeOk, listingOk))
  {
    if ActionApplies(a, id) {
      var s := TargetSuggestion(a, id);
      SetStatusWellFormed(a.messages, id, DecisionStatus(d));
      var b := if d == Decline then a else WriteSuggestion(a, s, writeOk, listingOk);
      if d == Approve {
        WriteSuggestionWf(a, s, writeOk, listingOk);
      }
      LogOnlyChangeWf(b, Act(a, id, d, writeOk, listingOk));
    }
  }

  /** Approving with a successful write and rescan leaves the script list
      holding the suggested script with the suggested code, marks the
      suggestion approved and ends idle. */
  lemma ApproveSavesScript(a: App, id: string)
    requires Wf(a) && ActionApplies(a, id)
    requires Lookup(a.directory.value, TargetSuggestion(a, id).scriptName) != Some(DirectoryEntry)
    ensures var s := TargetSuggestion(a, id);
            var r := Act(a, id, Approve, true, true);
            && FindScript(r.scripts, s.scriptName) == Some(ScriptFile(s.scriptName, s.code, FileHandle(s.scriptName)))
            && Lookup(r.directory.value, s.scriptName) == Some(FileEntry(s.code))
            && r.toast == s.scriptName + SavedSuffix
            && !r.isLoading
            && r.messages[FindMessage(a.messages, id).value].suggestion.value.status == Approved
  {
    var s := TargetSuggestion(a, id);
    assert ValidScriptName(s.scriptName);
    WriteThenScan(a.directory.value, s.scriptName, s.code, true);
  }

  /** When the viewed script is the one approved, the viewer shows the
      written code after the rescan, and in READY the session is rebuilt
      from the new snapshot. */
  lemma ApproveRefreshesViewer(a: App, id: string)
    requires Wf(a) && ActionApplies(a, id)
    requires Lookup(a.directory.value, TargetSuggestion(a, id).scriptName) != Some(DirectoryEntry)
    requires a.selected.Some? && a.selected.value.name == TargetSuggestion(a, id).scriptName
    ensures var s := TargetSuggestion(a, id);
            var r := Act(a, id, Approve, true, true);
            && r.selected == Some(ScriptFile(s.scriptName, s.code, FileHandle(s.scriptName)))
            && (a.phase == Ready ==> r.chat == Some(ChatSession(SystemInstruction(r.scripts))))
  {
    ApproveSavesScript(a, id);
  }

  /** A failed write still marks the suggestion approved, but leaves the
      folder and the snapshot as they were. */
  lemma ApproveWriteFailure(a: App, id: string, writeOk: bool, listingOk: bool)
    requires ActionApplies(a, id)
    requires WriteFile(a.directory.value, TargetSuggestion(a, id).scriptName, TargetSuggestion(a, id).code, writeOk).None?
    ensures var s := TargetSuggestion(a, id);
            var r := Act(a, id, Approve, writeOk, listingOk);
            && r.directory == a.directory && r.scripts == a.scripts && r.selected == a.selected
            && r.toast == SaveErrorToast(s.scriptName)
            && !r.isLoading
            && r.messages[FindMessage(a.messages, id).value].suggestion.value.status == Approved
  {
  }

  /** A write that succeeds followed by a listing that throws: the folder
      holds the new code, but the script list, the viewed script and the chat
      session stay as they were, the toast reports an error, and the
      suggestion is still marked approved. */
  lemma ApproveRescanFailure(a: App, id: string)
    requires ActionApplies(a, id)
    requires WriteFile(a.directory.value, TargetSuggestion(a, id).scriptName, TargetSuggestion(a, id).code, true).Some?
    ensures var s := TargetSuggestion(a, id);
            var r := Act(a, id, Approve, true, false);
            && Lookup(r.directory.value, s.scriptName) == Some(FileEntry(s.code))
            && r.scripts == a.scripts && r.selected == a.selected && r.chat == a.chat
            && r.toast == SaveErrorToast(s.scriptName)
            && !r.isLoading
            && r.messages[FindMessage(a.messages, id).value].suggestion.value.status == Approved
  {
  }

  /** Declining never writes: the folder and snapshot are untouched and only
      the status changes. */
  lemma DeclineNeverWrites(a: App, id: string, writeOk: bool, listingOk: bool)
    requires ActionApplies(a, id)
    ensures var r := Act(a, id, Decline, writeOk, listingOk);
            && r.directory == a.directory && r.scripts == a.scripts
            && r.messages[FindMessage(a.messages, id).value].suggestion.value.status == Declined
            && forall k :: 0 <= k < |a.messages| && a.messages[k].id != id ==> r.messages[k] == a.messages[k]
  {
  }

  /** The handler does not check the status: a suggestion that was already
      decided is decided again, e.g. an approved one can be declined. */
  lemma DecidedSuggestionCanChange(a: App, id: string, d: Decision, writeOk: bool, listingOk: bool)
    requires ActionApplies(a, id) && TargetSuggestion(a, id).status != Pending
    ensures var k := FindMessage(a.messages, id).value;
            Act(a, id, d, writeOk, listingOk).messages[k].suggestion.value.status == DecisionStatus(d)
  {
  }

  predicate UniqueIds(log: seq<ChatMessage>) {
    forall i, j :: 0 <= i < j < |log| ==> log[i].id != log[j].id
  }

  /** The suggestion card shows its buttons only while pending. */
  predicate ButtonsShown(m: ChatMessage) {
    m.suggestion.Some? && m.suggestion.value.status == Pending
  }

  /** A click on the `k`-th message's button, as the chat window allows it:
      the card renders its buttons only while its own suggestion is pending,
      and the button passes the message's id to the handler. Otherwise the
      click cannot happen and nothing changes. A shown button decides the
      clicked suggestion whenever the handler proceeds, and a message with
      another id never changes. */
  function Click(a: App, k: nat, d: Decision, writeOk: bool, listingOk: bool): (r: App)
    requires k < |a.messages|
    ensures !ButtonsShown(a.messages[k]) ==> r == a
    ensures |r.messages| == |a.messages|
    ensures forall j :: 0 <= j < |a.messages| && a.messages[j].id != a.messages[k].id ==> r.messages[j] == a.messages[j]
    ensures ButtonsShown(a.messages[k]) && a.directory.Some?
            && (forall j :: 0 <= j < k ==> a.messages[j].id != a.messages[k].id) ==>
              r.messages[k].suggestion == Some(a.messages[k].suggestion.value.(status := DecisionStatus(d)))
  {
    if ButtonsShown(a.messages[k]) then
      var id := a.messages[k].id;
      assert ActionApplies(a, id) <== a.directory.Some? && (forall j :: 0 <= j < k ==> a.messages[j].id != id);
      Act(a, id, d, writeOk, listingOk)
    else a
  }

  /** Through the interface, with unique ids, a decided suggestion stays
      decided, whichever button is clicked: the one-way status rests on the
      buttons being hidden. */
  lemma DecidedStaysDecidedThroughUi(a: App, c: nat, d: Decision, writeOk: bool, listingOk: bool, k: nat)
    requires UniqueIds(a.messages) && c < |a.messages|
    requires k < |a.messages| && a.messages[k].suggestion.Some?
    requires a.messages[k].suggestion.value.status != Pending
    ensures var r := Click(a, c, d, writeOk, listingOk);
            k < |r.messages| && r.messages[k].suggestion == a.messages[k].suggestion
  {
  }

  /** A pending suggestion clicked through the interface becomes decided and
      loses its buttons. */
  lemma ClickSettles(a: App, k: nat, d: Decision, writeOk: bool, listingOk: bool)
    requires UniqueIds(a.messages) && a.directory.Some?
    requires k < |a.messages| && ButtonsShown(a.messages[k])
    ensures var r := Click(a, k, d, writeOk, listingOk);
            r.messages[k].suggestion.value.status == DecisionStatus(d) && !ButtonsShown(r.messages[k])
  {
  }

  /** With unique ids the action's id names exactly one message, the one
      carrying the suggestion; so the status update never meets another
      message with that id, with or without a suggestion. */
  lemma ActionTargetsOneMessage(a: App, id: string)
    requires UniqueIds(a.messages) && ActionApplies(a, id)
    ensures var k := FindMessage(a.messages, id).value;
            forall j :: 0 <= j < |a.messages| && a.messages[j].id == id ==> j == k && a.messages[j].suggestion.Some?
  {
  }

  /** A conversation without a chat session returns early and leaves the
      state busy, so the send box ignores the next submission, and every one
      after it until something clears the busy flag (`ApproveClearsBusy`). */
  lemma NoSessionLeavesBusy(a: App, text: string, sentAt: nat, repliedAt: nat, parsed: Option<Reply>, stream: Stream)
    requires Classify(text).GeneralChat? && a.chat.None?
    ensures var r := SendMessage(a, text, sentAt, repliedAt, parsed, stream);
            && r.isLoading
            && r.messages == a.messages + [UserMessage(sentAt, text)]
            && forall input, t1, t2, p, s :: Submit(r, input, t1, t2, p, s) == r
  {
  }

  /** Selection leaves the scanning text behind: a conversation keeps it
      (and the overlay shows it while the reply streams), while a suggestion
      request clears it. */
  lemma ScanningTextStaysUntilSuggestion(folder: Folder, t0: nat, text: string, t1: nat, t2: nat,
                                         parsed: Option<Reply>, stream: Stream)
    ensures var a := Select(Init(true), Picked(folder, None), t0);
            var r := SendMessage(a, text, t1, t2, parsed, stream);
            && a.loadingMessage == ScanningText
            && (Classify(text).GeneralChat? ==> r.loadingMessage == ScanningText)
            && (Classify(text).FileSuggestion? ==> r.loadingMessage == "")
  {
  }

  /** The suggestion buttons are not gated by the busy flag, and approving
      always ends idle, whatever the write and the listing do; declining
      leaves the flag as it was. */
  lemma ApproveClearsBusy(a: App, id: string, writeOk: bool, listingOk: bool)
    requires ActionApplies(a, id)
    ensures !Act(a, id, Approve, writeOk, listingOk).isLoading
    ensures Act(a, id, Decline, writeOk, listingOk).isLoading == a.isLoading
  {
  }

  /** In READY with at least one script a conversation always has a session,
      so a streamed conversation does reach the assistant. */
  lemma ReadyWithScriptsStreams(a: App, text: string, sentAt: nat, repliedAt: nat, parsed: Option<Reply>, stream: Stream)
    requires Wf(a) && a.phase == Ready && |a.scripts| > 0 && Classify(text).GeneralChat?
    ensures var r := SendMessage(a, text, sentAt, repliedAt, parsed, stream);
            !r.isLoading && |r.messages| == |a.messages| + 2
            && r.messages[|a.messages| + 1] == ChatMessage(MessageId(repliedAt, AiStream), Ai, FinalText(stream), None)
  {
  }
}

=== FILE: scenarios.dfy ===
/** Worked examples, proved end to end through the handlers. */
module Scenarios {
  import opened Wrappers
  import opened Strings
  import opened Types
  import opened Classifier
  import opened Directory
  import opened Conversation
  import opened AppModel

  /** A project folder holding one script, `Player.cs`. */
  function PlayerFolder(content: string): Folder {
    [Entry("Player.cs", FileEntry(content))]
  }

  function PlayerScript(content: string): ScriptFile {
    ScriptFile("Player.cs", content, FileHandle("Player.cs"))
  }

  lemma ScanPlayerFolder(content: string)
    ensures Scan(PlayerFolder(content)) == [PlayerScript(content)]
  {
    assert "Player.cs"[6..] == ScriptExtension;
    assert PlayerFolder(content)[1..] == [];
  }

  lemma WritePlayerFolder(before: string, content: string)
    ensures WriteFile(PlayerFolder(before), "Player.cs", content, true) == Some(PlayerFolder(content))
  {
    var f := PlayerFolder(before);
    assert f[0].name == "Player.cs" && f[0].kind.FileEntry?;
    assert f[1..] == [];
    assert Put(f, "Player.cs", content) == Some([Entry("Player.cs", FileEntry(content))] + f[1..]);
    assert [Entry("Player.cs", FileEntry(content))] + f[1..] == PlayerFolder(content);
  }

  /** Selecting the folder reaches READY with the one script listed. */
  lemma SelectPlayerFolder(t0: nat)
    ensures var a := Select(Init(true), Picked(PlayerFolder("// old"), None), t0);
            && a.phase == Ready
            && a.directory == Some(PlayerFolder("// old"))
            && a.scripts == [PlayerScript("// old")]
            && a.messages == [Greeting(t0, 1)]
  {
    ScanPlayerFolder("// old");
  }

  /** The reply the model gives for "update Player.cs". */
  function JumpReply(): Reply {
    Reply("Added jump", "// new", Some(["Added Jump() method"]))
  }

  /** A request the classifier reads as an edit of `Player.cs`, such as
      "update Player.cs" (see `Classifier.ClassifyEditRequest`), appends the
      user message and a pending edit suggestion carrying the reply's code. */
  lemma AskForEdit(a: App, request: string, t1: nat, t2: nat, stream: Stream)
    requires Classify(request) == FileSuggestion(Edit, "Player.cs")
    ensures var b := SendMessage(a, request, t1, t2, Some(JumpReply()), stream);
            && b.messages == a.messages + [UserMessage(t1, request),
                 ReplyMessage(t2, Edit, "Player.cs", Some(JumpReply()))]
            && b.directory == a.directory
            && !b.isLoading
  {
  }

  lemma JumpSuggestion(t2: nat)
    ensures ReplyMessage(t2, Edit, "Player.cs", Some(JumpReply())).suggestion
              == Some(Suggestion(Edit, "Player.cs", "// new", "Added jump", Some(["Added Jump() method"]), Pending))
    ensures ReplyMessage(t2, Edit, "Player.cs", Some(JumpReply())).id == MessageId(t2, AiSuggestion)
  {
  }

  /** Approving that suggestion writes the new code to the folder, re-lists
      it, and marks the suggestion approved. */
  lemma ApproveJump(b: App, t2: nat)
    requires b.directory == Some(PlayerFolder("// old"))
    requires |b.messages| == 3
    requires b.messages[0].id != MessageId(t2, AiSuggestion) && b.messages[1].id != MessageId(t2, AiSuggestion)
    requires b.messages[2] == ReplyMessage(t2, Edit, "Player.cs", Some(JumpReply()))
    ensures var c := Act(b, MessageId(t2, AiSuggestion), Approve, true, true);
            && c.directory == Some(PlayerFolder("// new"))
            && c.scripts == [PlayerScript("// new")]
            && c.messages[2].suggestion.value.status == Approved
            && c.messages[2].suggestion.value.code == "// new"
            && !c.isLoading
  {
    var id := MessageId(t2, AiSuggestion);
    JumpSuggestion(t2);
    assert FindMessage(b.messages, id) == Some(2);
    assert TargetSuggestion(b, id).scriptName == "Player.cs";
    assert TargetSuggestion(b, id).code == "// new";
    WritePlayerFolder("// old", "// new");
    ScanPlayerFolder("// new");
  }

  /** The three steps together: select the folder, ask for the edit,
      approve it. */
  lemma EditScenario(t0: nat, t1: nat, t2: nat, request: string, stream: Stream)
    requires Classify(request) == FileSuggestion(Edit, "Player.cs")
    ensures var a := Select(Init(true), Picked(PlayerFolder("// old"), None), t0);
            var b := SendMessage(a, request, t1, t2, Some(JumpReply()), stream);
            var c := Act(b, MessageId(t2, AiSuggestion), Approve, true, true);
            && a.scripts == [PlayerScript("// old")]
            && b.messages[2].suggestion.value.status == Pending
            && c.directory == Some(PlayerFolder("// new"))
            && c.scripts == [PlayerScript("// new")]
            && c.messages[2].suggestion.value.status == Approved
  {
    var a := Select(Init(true), Picked(PlayerFolder("// old"), None), t0);
    SelectPlayerFolder(t0);
    AskForEdit(a, request, t1, t2, stream);
    var b := SendMessage(a, request, t1, t2, Some(JumpReply()), stream);
    JumpSuggestion(t2);
    MessageIdsDistinct(t0, Plain, t2, AiSuggestion);
    MessageIdsDistinct(t1, Plain, t2, AiSuggestion);
    assert b.messages[0].id == MessageId(t0, Plain);
    assert b.messages[1].id == MessageId(t1, Plain);
    ApproveJump(b, t2);
  }

  /** An empty folder is a valid project: the session reaches READY and the
      greeting reports zero scripts. No chat session is created without
      scripts, so a conversational message gets no reply and leaves the
      state busy. */
  lemma EmptyFolderScenario(t0: nat, t1: nat, t2: nat, text: string, parsed: Option<Reply>, stream: Stream)
    requires Classify(text).GeneralChat?
    ensures var a := Select(Init(true), Picked([], None), t0);
            && a.phase == Ready && a.scripts == [] && a.chat.None?
            && a.messages == [Greeting(t0, 0)]
            && SendMessage(a, text, t1, t2, parsed, stream).isLoading
            && |SendMessage(a, text, t1, t2, parsed, stream).messages| == 2
  {
  }

  /** An empty project is not stuck for good. A creation request needs no
      chat session, so it yields a pending suggestion; a conversation then
      leaves the state busy without a loading text (so no overlay covers the
      suggestion); approving the suggestion writes the script, ends idle, and
      the rescan of the now non-empty folder creates the session. */
  lemma EmptyProjectRecovers(t0: nat, t1: nat, t2: nat, t3: nat, t4: nat, request: string, reply: Reply,
                             stream1: Stream, chat: string, parsed: Option<Reply>, stream2: Stream)
    requires Classify(request).FileSuggestion? && Classify(chat).GeneralChat?
    ensures var a := Select(Init(true), Picked([], None), t0);
            var b := SendMessage(a, request, t1, t2, Some(reply), stream1);
            var c := SendMessage(b, chat, t3, t4, parsed, stream2);
            var d := Act(c, MessageId(t2, AiSuggestion), Approve, true, true);
            && a.chat.None?
            && c.isLoading && c.loadingMessage == ""
            && |c.messages| == 4 && c.messages[2].suggestion.Some? && c.messages[2].suggestion.value.status == Pending
            && !d.isLoading && d.chat.Some? && |d.scripts| == 1
            && |d.messages| == 4 && d.messages[2].suggestion.Some? && d.messages[2].suggestion.value.status == Approved
  {
    var a := Select(Init(true), Picked([], None), t0);
    assert a.messages == [Greeting(t0, 0)] && a.directory == Some([]) && a.phase == Ready && a.chat.None?;
    SuggestionSurvivesChat(a, t0, t1, t2, t3, t4, request, reply, stream1, chat, parsed, stream2);
  }

  /** The body of `EmptyProjectRecovers`, from the state just after the
      empty folder was selected. */
  lemma SuggestionSurvivesChat(a: App, t0: nat, t1: nat, t2: nat, t3: nat, t4: nat, request: string, reply: Reply,
                               stream1: Stream, chat: string, parsed: Option<Reply>, stream2: Stream)
    requires Classify(request).FileSuggestion? && Classify(chat).GeneralChat?
    requires a.messages == [Greeting(t0, 0)] && a.directory == Some([]) && a.phase == Ready && a.chat.None?
    ensures var b := SendMessage(a, request, t1, t2, Some(reply), stream1);
            var c := SendMessage(b, chat, t3, t4, parsed, stream2);
            var d := Act(c, MessageId(t2, AiSuggestion), Approve, true, true);
            && c.isLoading && c.loadingMessage == ""
            && |c.messages| == 4 && c.messages[2].suggestion.Some? && c.messages[2].suggestion.value.status == Pending
            && !d.isLoading && d.chat.Some? && |d.scripts| == 1
            && |d.messages| == 4 && d.messages[2].suggestion.Some? && d.messages[2].suggestion.value.status == Approved
  {
    var name := Classify(request).scriptName;
    var b := SendMessage(a, request, t1, t2, Some(reply), stream1);
    var m := ReplyMessage(t2, Classify(request).kind, name, Some(reply));
    assert b.messages == [Greeting(t0, 0), UserMessage(t1, request), m];
    var c := SendMessage(b, chat, t3, t4, parsed, stream2);
    assert c.messages == [Greeting(t0, 0), UserMessage(t1, request), m, UserMessage(t3, chat)];
    var id := MessageId(t2, AiSuggestion);
    MessageIdsDistinct(t0, Plain, t2, AiSuggestion);
    MessageIdsDistinct(t1, Plain, t2, AiSuggestion);
    assert c.messages[0].id != id && c.messages[1].id != id && c.messages[2].id == id;
    assert FindMessage(c.messages, id) == Some(2);
    assert TargetSuggestion(c, id).scriptName == name;
    ApproveIntoEmptyFolder(c, id);
    var d := Act(c, id, Approve, true, true);
    assert d.messages[2].suggestion == Some(c.messages[2].suggestion.value.(status := Approved));
  }

  /** Approving a suggestion while the held folder is empty writes the one
      script, ends idle and, the rescan finding that script, creates the
      session. */
  lemma ApproveIntoEmptyFolder(c: App, id: string)
    requires c.directory == Some([]) && c.phase == Ready && ActionApplies(c, id)
    requires ValidScriptName(TargetSuggestion(c, id).scriptName)
    ensures var d := Act(c, id, Approve, true, true);
            && !d.isLoading && d.chat.Some? && |d.scripts| == 1
            && d.messages == SetStatus(c.messages, id, Approved)
  {
    var name := TargetSuggestion(c, id).scriptName;
    var code := TargetSuggestion(c, id).code;
    var folder := [Entry(name, FileEntry(code))];
    assert WriteFile([], name, code, true) == Some(folder);
    assert folder[1..] == [];
    assert Scan(folder) == [ScriptFile(name, code, FileHandle(name))];
  }
}

=== FILE: strings.dfy ===
/** String helpers with the meaning of the JavaScript built-ins the application
    uses: `includes`, `endsWith`, case-insensitive regex matching on ASCII
    patterns, `trim`, and `Number.prototype.toString` on non-negative integers. */
module Strings {

  /** `w` occurs in `s` at offset `k`. */
  predicate OccursAt(s: string, w: string, k: int) {
    0 <= k && k + |w| <= |s| && s[k..k + |w|] == w
  }

  lemma OccursSelf(w: string)
    ensures OccursAt(w, w, 0)
  {
    assert w[0..|w|] == w;
  }

  /** An occurrence stays an occurrence when text is added around it. */
  lemma OccursInContext(p: string, s: string, q: string, w: string, k: int)
    requires OccursAt(s, w, k)
    ensures OccursAt(p + s + q, w, |p| + k)
  {
    assert (p + s + q)[|p| + k..|p| + k + |w|] == s[k..k + |w|];
  }

  /** An occurrence inside an occurrence is an occurrence. */
  lemma OccursTransitive(s: string, w: string, k: int, v: string, j: int)
    requires OccursAt(s, w, k) && OccursAt(w, v, j)
    ensures OccursAt(s, v, k + j)
  {
    forall i | 0 <= i < |v|
      ensures s[k + j..k + j + |v|][i] == v[i]
    {
      assert s[k + j + i] == s[k..k + |w|][j + i] == w[j + i] == w[j..j + |v|][i];
    }
  }

  /** `s.includes(w)`, searched from offset `i` onwards. */
  function ContainsFrom(s: string, w: string, i: nat): (r: bool)
    decreases |s| - i
    ensures r <==> exists k :: i <= k && OccursAt(s, w, k)
  {
    if i + |w| > |s| then
      false
    else if s[i..i + |w|] == w then
      assert OccursAt(s, w, i);
      true
    else
      ContainsFrom(s, w, i + 1)
  }

  /** `s.includes(w)`: `w` occurs somewhere in `s`. */
  function Contains(s: string, w: string): (r: bool)
    ensures r <==> exists k :: OccursAt(s, w, k)
  {
    ContainsFrom(s, w, 0)
  }

  /** `s.endsWith(suffix)`. */
  predicate EndsWith(s: string, suffix: string) {
    |suffix| <= |s| && s[|s| - |suffix|..] == suffix
  }

  predicate IsAsciiUpper(c: char) { 'A' <= c <= 'Z' }

  /** The ASCII letter folding a regular expression with the `i` flag (and no
      `u` flag) applies when its pattern is ASCII: a non-ASCII character is
      never folded onto an ASCII one. */
  function LowerChar(c: char): (r: char)
    ensures IsAsciiUpper(c) ==> r as int == c as int + 32
    ensures !IsAsciiUpper(c) ==> r == c
    ensures !IsAsciiUpper(r)
  {
    if IsAsciiUpper(c) then (c as int + 32) as char else c
  }

  function UpperChar(c: char): char {
    if 'a' <= c <= 'z' then (c as int - 32) as char else c
  }

  function Lower(s: string): (r: string)
    ensures |r| == |s|
    ensures forall k :: 0 <= k < |s| ==> r[k] == LowerChar(s[k])
  {
    seq(|s|, k requires 0 <= k < |s| => LowerChar(s[k]))
  }

  function Upper(s: string): (r: string)
    ensures |r| == |s|
    ensures forall k :: 0 <= k < |s| ==> r[k] == UpperChar(s[k])
  {
    seq(|s|, k requires 0 <= k < |s| => UpperChar(s[k]))
  }

  /** Folding is insensitive to the case the text was written in. */
  lemma LowerOfUpper(s: string)
    ensures Lower(Upper(s)) == Lower(s)
  {
    var a, b := Lower(Upper(s)), Lower(s);
    forall k | 0 <= k < |s|
      ensures a[k] == b[k]
    {
      var c := s[k];
      if 'a' <= c <= 'z' {
        assert UpperChar(c) as int == c as int - 32;
      }
    }
  }

  /** `/w/i.test(s)` for a lower-case ASCII word `w`. */
  function ContainsIgnoreCase(s: string, w: string): (r: bool)
    ensures r <==> exists k :: OccursAt(Lower(s), w, k)
  {
    Contains(Lower(s), w)
  }

  /** The characters `String.prototype.trim` removes: the white-space
      characters (TAB, VT, FF, SP, NBSP, ZWNBSP and the space separators of
      category Zs) and the line terminators (LF, CR, LS, PS). */
  predicate IsJsWhitespace(c: char) {
    c == '\t' || c == '\U{000B}' || c == '\U{000C}' || c == ' ' || c == '\U{00A0}'
    || c == '\U{FEFF}' || c == '\U{1680}' || ('\U{2000}' <= c <= '\U{200A}')
    || c == '\U{202F}' || c == '\U{205F}' || c == '\U{3000}'
    || c == '\n' || c == '\r' || c == '\U{2028}' || c == '\U{2029}'
  }

  /** Number of white-space characters at the start of `s`. */
  function LeadingSpace(s: string, i: nat := 0): (n: nat)
    requires i <= |s|
    decreases |s| - i
    ensures i <= n <= |s|
    ensures forall k :: i <= k < n ==> IsJsWhitespace(s[k])
    ensures n < |s| ==> !IsJsWhitespace(s[n])
  {
    if i < |s| && IsJsWhitespace(s[i]) then LeadingSpace(s, i + 1) else i
  }

  /** Index just past the last non-white-space character of `s[..j]`. */
  function TrailingEnd(s: string, j: nat): (n: nat)
    requires j <= |s|
    ensures n <= j
    ensures forall k :: n <= k < j ==> IsJsWhitespace(s[k])
    ensures n > 0 ==> !IsJsWhitespace(s[n - 1])
  {
    if j > 0 && IsJsWhitespace(s[j - 1]) then TrailingEnd(s, j - 1) else j
  }

  /** `s.trim()`: the slice of `s` left after removing white space at both
      ends. */
  function Trim(s: string): (r: string)
    ensures exists i, j :: 0 <= i <= j <= |s| && r == s[i..j]
                           && (forall k :: 0 <= k < i ==> IsJsWhitespace(s[k]))
                           && (forall k :: j <= k < |s| ==> IsJsWhitespace(s[k]))
    ensures |r| > 0 ==> !IsJsWhitespace(r[0]) && !IsJsWhitespace(r[|r| - 1])
    ensures r == [] <==> forall k :: 0 <= k < |s| ==> IsJsWhitespace(s[k])
  {
    var i := LeadingSpace(s);
    if i == |s| then
      assert s[i..i] == [];
      []
    else
      var j := TrailingEnd(s, |s|);
      s[i..j]
  }

  predicate IsDigit(c: char) { '0' <= c <= '9' }

  predicate AllDigits(s: string) {
    forall k :: 0 <= k < |s| ==> IsDigit(s[k])
  }

  function DigitChar(d: nat): (c: char)
    requires d < 10
    ensures IsDigit(c) && c as int - '0' as int == d
  {
    ('0' as int + d) as char
  }

  /** The number a string of decimal digits denotes. */
  function DecimalValue(s: string): nat
    requires AllDigits(s)
  {
    if |s| == 0 then 0
    else DecimalValue(s[..|s| - 1]) * 10 + (s[|s| - 1] as int - '0' as int)
  }

  /** `n.toString()` for a non-negative integer: its decimal digits, with no
      sign and no leading zero. */
  function NatToDecimal(n: nat): (r: string)
    ensures |r| > 0 && AllDigits(r)
    ensures r[0] == '0' ==> r == "0"
    ensures DecimalValue(r) == n
  {
    if n < 10 then
      [DigitChar(n)]
    else
      var p := NatToDecimal(n / 10);
      var r := p + [DigitChar(n % 10)];
      assert r[..|r| - 1] == p;
      r
  }

  /** Decimal rendering is injective: different numbers render differently. */
  lemma NatToDecimalInjective(m: nat, n: nat)
    requires NatToDecimal(m) == NatToDecimal(n)
    ensures m == n
  {
  }

  /** Number of decimal digits at the start of `t`. */
  function LeadingDigits(t: string): (n: nat)
    ensures n <= |t|
  {
    if |t| > 0 && IsDigit(t[0]) then 1 + LeadingDigits(t[1..]) else 0
  }

  lemma {:induction false} LeadingDigitsOf(d: string, s: string)
    requires AllDigits(d)
    requires |s| == 0 || !IsDigit(s[0])
    ensures LeadingDigits(d + s) == |d|
  {
    if |d| == 0 {
      assert d + s == s;
    } else {
      assert (d + s)[1..] == d[1..] + s;
      LeadingDigitsOf(d[1..], s);
    }
  }

  /** A digit string followed by a suffix that is empty or starts with a
      non-digit can be split back uniquely. */
  lemma {:induction false} SplitDigitPrefix(d1: string, s1: string, d2: string, s2: string)
    requires AllDigits(d1) && AllDigits(d2)
    requires |s1| == 0 || !IsDigit(s1[0])
    requires |s2| == 0 || !IsDigit(s2[0])
    requires d1 + s1 == d2 + s2
    ensures d1 == d2 && s1 == s2
  {
    var t := d1 + s1;
    LeadingDigitsOf(d1, s1);
    LeadingDigitsOf(d2, s2);
    assert d1 == t[..|d1|] == d2;
  }
}

=== FILE: types.dfy ===
/** The records of `types.ts`: script files, suggestions, chat messages and
    the application phase, together with the string literals (and, for the
    phase, the enum ordinals) the TypeScript code uses for their variants. */
module Types {
  import opened Wrappers

  /** The extension of the scripts the application lists and suggests. */
  const ScriptExtension := ".cs"

  /** Opaque capability to rewrite one file; it names the file it grants. */
  datatype FileHandle = FileHandle(fileName: string)

  datatype ScriptFile = ScriptFile(name: string, content: string, handle: FileHandle)

  datatype SuggestionKind = Create | Edit

  datatype Status = Pending | Approved | Declined

  datatype Suggestion = Suggestion(
    kind: SuggestionKind,
    scriptName: string,
    code: string,
    explanation: string,
    changes: Option<seq<string>>,
    status: Status)

  datatype Sender = User | Ai

  datatype ChatMessage = ChatMessage(
    id: string,
    sender: Sender,
    text: string,
    suggestion: Option<Suggestion>)

  /** The four phases of the application, in the enum's declaration order. */
  datatype AppState = Unsupported | Selecting | Scanning | Ready

  function KindLiteral(k: SuggestionKind): string {
    match k
    case Create => "create"
    case Edit => "edit"
  }

  /** Reads a `type` literal; exactly the two literals of the union parse. */
  function ParseKind(t: string): (r: Option<SuggestionKind>)
    ensures r.Some? <==> t == "create" || t == "edit"
    ensures r.Some? ==> KindLiteral(r.value) == t
  {
    if t == "create" then Some(Create)
    else if t == "edit" then Some(Edit)
    else None
  }

  function StatusLiteral(s: Status): string {
    match s
    case Pending => "pending"
    case Approved => "approved"
    case Declined => "declined"
  }

  /** Reads a `status` literal; exactly the three literals of the union parse. */
  function ParseStatus(t: string): (r: Option<Status>)
    ensures r.Some? <==> t == "pending" || t == "approved" || t == "declined"
    ensures r.Some? ==> StatusLiteral(r.value) == t
  {
    if t == "pending" then Some(Pending)
    else if t == "approved" then Some(Approved)
    else if t == "declined" then Some(Declined)
    else None
  }

  function SenderLiteral(s: Sender): string {
    match s
    case User => "user"
    case Ai => "ai"
  }

  /** Reads a `sender` literal; exactly the two literals of the union parse. */
  function ParseSender(t: string): (r: Option<Sender>)
    ensures r.Some? <==> t == "user" || t == "ai"
    ensures r.Some? ==> SenderLiteral(r.value) == t
  {
    if t == "user" then Some(User)
    else if t == "ai" then Some(Ai)
    else None
  }

  /** The numeric value TypeScript gives each member of the `AppState` enum. */
  function Ordinal(p: AppState): (n: nat)
    ensures n < 4
  {
    match p
    case Unsupported => 0
    case Selecting => 1
    case Scanning => 2
    case Ready => 3
  }

  /** The enum member with ordinal `n`; there are exactly four. */
  function PhaseOfOrdinal(n: nat): (r: Option<AppState>)
    ensures r.Some? <==> n < 4
    ensures r.Some? ==> Ordinal(r.value) == n
  {
    if n == 0 then Some(Unsupported)
    else if n == 1 then Some(Selecting)
    else if n == 2 then Some(Scanning)
    else if n == 3 then Some(Ready)
    else None
  }

  /** Every literal and ordinal round-trips through its reader. */
  lemma LiteralsRoundTrip(k: SuggestionKind, s: Status, who: Sender, p: AppState)
    ensures ParseKind(KindLiteral(k)) == Some(k)
    ensures ParseStatus(StatusLiteral(s)) == Some(s)
    ensures ParseSender(SenderLiteral(who)) == Some(who)
    ensures PhaseOfOrdinal(Ordinal(p)) == Some(p)
  {
  }
}

=== FILE: wrappers.dfy ===
/** The optional-value datatype used throughout the model for JavaScript's
    `null` / `undefined` results. */
module Wrappers {

  datatype Option<+T> = None | Some(value: T)
}
